=== FILE: README.md ===
# yahoo-finance-mcp in Dafny

A model of the data-retrieval gateway of yahoo-finance-mcp and of the three
front ends that expose it.

- **The gateway** (`src/tools.ts`) has fourteen operations over the
  `yahoo-finance2` library. The model covers:
  - quote, historical data, symbol search, company info, recommendations,
    trending symbols and market summary;
  - news, options and insights;
  - daily gainers and daily losers;
  - chart and quote summary.
- **The MCP agent** (`src/mcp-agent.ts`) lists the tools and dispatches a
  tool name to its operation. It wraps the result or the error in a
  response envelope and serves five fixed resources.
- **The standalone server** (`src/index.ts`) answers the same names but
  inlines every operation. It has its own defaults and does not sanitize
  or reshape results.
- **The LlamaIndex registry** (`src/llamaindex-tools.ts`) registers each
  operation behind a `toJSON` wrapper and groups the tools into four
  categories.

The model does not talk to anything. The upstream library is a parameter,
`Library = Call -> Result<Value, Thrown>`: a function from the call the
code makes, with its exact options, to what the awaited promise delivers.
The clock is a parameter `now: Instant` carrying its ISO string.

The model contains:

- **JavaScript values** (`js_value.dfy`): undefined, null, booleans,
  numbers, strings, arrays, Dates and plain objects. Objects are
  sequences of members, kept in the order in which the code writes them.
- **JavaScript semantics the code depends on**, stated explicitly:
  - which values are falsy;
  - `x || d` versus a destructuring or zod default, which replaces
    `undefined` only;
  - a property read on undefined or null throws;
  - `error instanceof Error ? error.message : fallback`.
- **`JSON.parse(JSON.stringify(v, replacer))`** (`json.dfy`). It follows
  sections 25.5.2.2 and 21.4.4.37 of ECMA-262:
  - `Date.prototype.toJSON` runs before the replacer, so the replacer never
    sees a Date;
  - undefined members are dropped;
  - undefined array slots become null;
  - non-finite numbers and invalid Dates become null.
- **`parsePeriod`** (`period.dfy`), including an executable matcher for
  `/^\d{4}-\d{2}-\d{2}$/`.
- **The zod parameter schemas** as declared keys with defaults
  (`schema.dfy`).
- **The operations** (`tools.dfy`).
- **The three front ends**: `envelope.dfy`, `mcp_agent.dfy`,
  `standalone_server.dfy` and `llamaindex_tools.dfy`.

Three facts about the code that the model keeps:

- The screener operations have no fallback to another data source. A
  failing screener call is rethrown with the Chinese error prefix.
- Quotes are passed through as the library delivers them. In particular,
  `shortName` is copied as is and never filled in from `symbol`.
- The screener result's `count` is the upstream `count`, or 0 when that is
  falsy. It is never recomputed from the quotes
  (`Tools.ScreenerCountNotRecomputed`).

## Model

Some members carry no contract of their own and have no row.
`Tools.GetQuote`, `SearchForSymbols`, `GetRecommendations`,
`GetTrendingSymbols`, `GetHistoricalData`, `GetOptions` and `GetInsights`
each hand one library call through. What they ask is stated of the request
(`HistoricalRequest`, `OptionsRequest`, `InsightsRequest`), of `Invoke` and
of `AbsentArgumentsTakeDefaults`. The schema table `Tools.ShapeOf` is
stated through `DeclaredArg`, `ParsedArgumentsAgree` and
`McpAgent.ListingMatchesCatalog`. `StandaloneServer.ResourceValue` is
stated through `ResourcesAreDefaultToolCalls` and `ServerDefaults`.
`Tools.Invoke`, the agent's table from operation to function, names each
case's function. It is stated through `McpAgent.Dispatch`,
`McpAgent.CallByName` and `ParsedArgumentsAgree`.

| member | source | states |
|---|---|---|
| JsValue.Prop | src/tools.ts:141-148 | reading a property fails exactly on undefined and null, with an Error; on an object it is the member's value or undefined |
| JsValue.OrElseVersusDefault | src/tools.ts:203-212 | a logical-or default and a destructuring default agree exactly when x is undefined, truthy, or already d; the logical-or default replaces every falsy x |
| Json.ToJson | src/llamaindex-tools.ts:34-39 | `toJSON` fails exactly on undefined, with JSON's SyntaxError message `"undefined" is not valid JSON`; otherwise its result is the serialization of the value, plain JSON with no Date left anywhere in it |
| Json.JsonHasNoDates | src/llamaindex-tools.ts:34-39 | a tree made only of JSON values contains no Date at any depth |
| Json.SerializeJsonIsIdentity | src/llamaindex-tools.ts:34-39 | a plain JSON tree serializes to itself |
| Json.ToJsonIdempotent | src/llamaindex-tools.ts:34-39 | sanitizing a sanitized value changes nothing |
| Json.SerializeAfterToJson | src/mcp-agent.ts:374-381 | stringifying a sanitized result writes the same text as stringifying the raw result, so a sanitizer in front of the envelope is invisible |
| Json.SerializeLeaves | src/llamaindex-tools.ts:34-39 | strings, booleans, null and finite numbers stay as they are; a valid Date becomes its ISO string; an invalid Date and a non-finite number become null |
| Json.SerializeArray | src/llamaindex-tools.ts:34-39 | an array keeps its length; an undefined slot becomes null and every other slot its own serialization |
| Json.SerializeObjectKeys | src/llamaindex-tools.ts:34-39 | an object keeps exactly its keys with defined values, in order, each mapped to its value's serialization |
| Envelope.Respond | src/mcp-agent.ts:374-391 | a result becomes a text response carrying its serialization; a throw becomes an isError text "Error: " plus the Error's message, or "Unknown error" for a non-Error |
| Envelope.RespondResource | src/mcp-agent.ts:459-470 | a read resource delivers its URI, the JSON mime type and the serialized value; a failure becomes "Failed to read resource <uri>: <message>" |
| Period.MatchAnchored | src/tools.ts:84 | the left-to-right matcher accepts a string exactly when it matches the fixed-length pattern as a whole |
| Period.DatePatternIsDateShape | src/tools.ts:84 | the position-by-position pattern `\d{4}-\d{2}-\d{2}` accepts exactly the ten-character digit-dash shapes |
| Period.IsExactDate | src/tools.ts:84 | the regular-expression test holds exactly for YYYY-MM-DD shapes, with no calendar check |
| Period.ParsePeriod | src/tools.ts:82-86 | "now" and only "now" gives the current instant; exactly the date-shaped strings give a Date from that text (the shape test is `IsDateShape`, which `IsExactDate` shows to be what the pattern accepts); every other string passes through unchanged |
| Period.ParsePeriodRoundTrip | src/tools.ts:82-86 | the original period string can be recovered from every result, and only "now" depends on the clock |
| Period.ParsePeriodExamples | src/tools.ts:82-86 | "2024-13-45" is accepted as a date, while "1mo", "1y", "", "2024-1-1" and an eleven-character date pass through |
| Period.ParsePeriodValue | src/tools.ts:82-86 | a non-string period makes `period.match` throw, so the call fails with an Error exactly when the period is not a string |
| Schema.ParseFields | src/tools.ts:7-69 | after schema parsing a declared key reads as the argument, or the schema default when the argument is undefined; an undeclared key reads as undefined |
| Schema.DefaultAfterParse | src/tools.ts:79 | a destructuring default equal to the schema default gives the same value before and after parsing |
| Tools.Rethrow | src/tools.ts:213-216 | success passes through unchanged; a failure becomes an Error whose message is the prefix plus the original message, or "未知错误" for a non-Error |
| Tools.ResolveBounds | src/tools.ts:79-91 | both bounds resolve exactly when each is absent or a string; an absent period1 resolves the default start and an absent period2 is the current instant; a non-string period1 fails with `parsePeriod`'s error, and otherwise a non-string period2 does |
| Tools.HistoricalRequest | src/tools.ts:78-95 | the historical call carries the symbol, the two resolved bounds, and interval "1d" unless one is given; it exists exactly when the bounds resolve |
| Tools.JoinCompanyInfo | src/tools.ts:103-120 | company info fails exactly when the statistics call fails, with its error; otherwise `{quote, profile}` has the statistics, and the profile or null when the profile call failed |
| Tools.GetCompanyInfo | src/tools.ts:103-120 | company info asks for the statistics and the profile of the same symbol; it fails exactly when the statistics call fails, with that error; otherwise `quote` is the statistics and `profile` the profile, or null when the profile call failed |
| Tools.AwaitAll | src/tools.ts:136-138 | `Promise.all` succeeds exactly when every call does, with the values in input order; otherwise it fails with the error of one of the failed calls |
| Tools.ProjectQuote | src/tools.ts:141-148 | an index entry has exactly the six summary keys, copied from the quote; it fails exactly on an undefined or null quote |
| Tools.ProjectAll | src/tools.ts:140-149 | the entries are the projections of the quotes in order; the map fails exactly when some quote cannot be projected, with that quote's error |
| Tools.SummarizeIndices | src/tools.ts:133-153 | the summary exists exactly when every index quote arrived and is readable; it has `indices` and `timestamp`, the indices in index-list order, and the timestamp is now |
| Tools.GetMarketSummary | src/tools.ts:133-153 | the summary has five entries, the i-th projected from the quote for the i-th of ^GSPC, ^DJI, ^IXIC, ^RUT, ^VIX; it succeeds exactly when all five quotes do |
| Tools.NewsRequest | src/tools.ts:155-160 | the news search asks for the query with exactly one option, `newsCount`, which is 10 unless given |
| Tools.GetNews | src/tools.ts:155-163 | news fails exactly when the search fails (with its error) or delivers undefined or null (with an Error); on an object result it is that object's `news` member, which may be undefined |
| Tools.OptionsRequest | src/tools.ts:165-175 | the options call carries the symbol, `formatted` defaulting to false, and a date exactly when the date argument is truthy |
| Tools.InsightsRequest | src/tools.ts:177-185 | the insights call carries the symbol and exactly one option, `reportsCount`, which is 5 unless given |
| Tools.ScreenerRequest | src/tools.ts:192-197 | the screener query has exactly the keys scrIds, count, lang and region; the screen id is fixed, lang is en-US, region is US, and count is 10 unless given |
| Tools.ShapeScreener | src/tools.ts:203-212 | the result fails exactly on an undefined or null payload; otherwise it has the eight result keys in order, copies id, and takes every other field from the payload when truthy or from its default, with timestamp now |
| Tools.DefaultedFields | src/tools.ts:203-212 | each row of a defaults table keeps its key and takes the payload's value when truthy, else the default |
| Tools.FetchScreener | src/tools.ts:187-212 | the screener body fails exactly when the call fails or delivers undefined or null; a call failure keeps its error |
| Tools.GetDailyMovers | src/tools.ts:187-249 | gainers and losers succeed exactly when the screener delivers a readable payload, and are then that payload shaped; a call failure becomes an Error with the screen's Chinese prefix plus its message, and an undefined or null payload that prefix plus the TypeError of reading `id` |
| Tools.FetchScreenerShapes | src/tools.ts:200-212 | whatever payload the screener delivers, the result is that payload shaped |
| Tools.AbsentArgumentsTakeDefaults | src/tools.ts:79-284 | with only the required key given, historical asks for "1y" until now at "1d", chart for "1mo" until now at "1d" with dividend, split and earnings events, options unformatted and undated, insights for five reports, news for ten items, the screener for ten quotes, and the quote summary for the four default modules |
| Tools.ScreenerCountNotRecomputed | src/tools.ts:203-212 | `count` is the upstream count, or 0 when falsy, whatever the quotes are; `quotes` is the upstream list or [] |
| Tools.ChartRequest | src/tools.ts:251-268 | the chart call carries the symbol, the bounds resolved from default start "1mo", interval "1d" and the dividend, split and earnings events unless given; it exists exactly when the bounds resolve |
| Tools.Sanitize | src/tools.ts:270-280 | a defined upstream value becomes its plain-JSON copy; an undefined one or a rejection becomes an Error whose message starts with the prefix |
| Tools.GetChart | src/tools.ts:251-281 | when a bound cannot be resolved, the chart fails with "获取图表数据时发生错误: " plus `parsePeriod`'s message; once the request is built, it is the sanitized library answer under that prefix; a result is plain JSON without Dates |
| Tools.BadBoundRethrown | src/tools.ts:251-281 | any numeric period1 makes the chart fail with its prefix plus "period.match is not a function", and historical data fail with that message alone |
| Tools.ChartIsSanitized | src/tools.ts:251-281 | once the request is built, the chart operation is the sanitized library answer under the chart prefix |
| Tools.QuoteSummaryOptions | src/tools.ts:283-289 | the quote summary asks for exactly the `modules` option, the four default modules unless given |
| Tools.GetQuoteSummary | src/tools.ts:283-303 | the quote summary succeeds exactly when the library delivers a defined value, and is then its plain-JSON copy without Dates; a rejection becomes an Error "获取股票摘要数据时发生错误: " plus its message, or "未知错误" for a non-Error; an undefined summary becomes that prefix plus JSON's SyntaxError message |
| Tools.DeclaredArg | src/tools.ts:7-69 | for each operation's schema, every declared key reads the same after parsing as the operation's destructuring reads it before |
| Tools.ParsedArgumentsAgree | src/tools.ts:7-69 | every operation gives the same result on schema-parsed arguments as on raw ones, so front ends that parse and front ends that do not behave alike |
| McpAgent.Dispatch | src/mcp-agent.ts:327-372 | an unknown name throws "Unknown tool: <name>"; a known name runs its operation |
| McpAgent.CallTool | src/mcp-agent.ts:309-392 | a request without arguments is refused with "Error: No arguments provided"; an unknown name becomes an error text; otherwise the operation's result or error goes into the envelope |
| McpAgent.ToolNameRoundTrip | src/mcp-agent.ts:327-372 | names and operations correspond one to one: every operation is dispatched by its own name, and only by that name |
| McpAgent.CallByName | src/mcp-agent.ts:309-392 | calling a tool by its name answers with its operation's envelope |
| McpAgent.ListingMatchesCatalog | src/mcp-agent.ts:55-306 | the fourteen listed tools are the catalog's operations in order, each with its operation's parameter schema |
| McpAgent.ListedToolsAreDispatched | src/mcp-agent.ts:55-306 | a name is accepted by the dispatch exactly when the tool list names it, and each listed schema is the schema of the operation run |
| McpAgent.ArgumentsRequired | src/mcp-agent.ts:312-322 | a call without arguments is refused whatever the library and clock, even for the market summary, whose listed schema has no keys |
| McpAgent.TextOnlyFromListedTools | src/mcp-agent.ts:309-392 | a result text comes only from a listed tool called with arguments whose operation succeeded |
| McpAgent.ReadResource | src/mcp-agent.ts:439-471 | an unknown URI fails with "Failed to read resource <uri>: Unknown resource: <uri>"; a known URI runs its operation with fixed parameters |
| McpAgent.ListedResourcesAreReadable | src/mcp-agent.ts:401-457 | exactly the listed URIs are readable |
| McpAgent.ResourceUriRoundTrip | src/mcp-agent.ts:445-457 | URIs and resources correspond one to one |
| McpAgent.ResourcesAreToolCalls | src/mcp-agent.ts:439-471 | reading a resource succeeds exactly when calling the same-named tool with the resource's parameters gives a result text, and both carry the same JSON |
| StandaloneServer.SearchNews | src/index.ts:480-502 | news fails exactly when the search fails or delivers nothing readable; the search passes newsCount, region and lang with their defaults, and the result is the `news` member |
| StandaloneServer.Handle | src/index.ts:341-651 | seven tools run the core operations; trending honours a region argument; news, insights and movers use this server's own options; chart and quote summary hand on the library's answer unsanitized, and a chart bound `parsePeriod` cannot read fails with its bare error, with no chart prefix |
| StandaloneServer.Dispatch | src/index.ts:341-644 | the server accepts the same names as the agent; an unknown name throws "Unknown tool: <name>" |
| StandaloneServer.CallTool | src/index.ts:325-658 | the same no-arguments guard, unknown-tool text and envelope as the agent, around this server's own handling |
| StandaloneServer.ReadResource | src/index.ts:697-789 | the same URIs and the same failure texts as the agent, around this server's own library calls |
| StandaloneServer.AdvertisedDefaultsAreApplied | src/index.ts:25-322 | each advertised input schema states this server's defaults: handling schema-parsed arguments gives what handling the raw ones gives |
| StandaloneServer.HandleIsInvoke | src/index.ts:342-526 | quote, historical data, search, company info, recommendations, market summary and options are the core operations themselves, with the same schemas |
| StandaloneServer.SharedToolsAgree | src/index.ts:325-658 | for those seven tools both servers give identical responses to every call, given that their two library clients answer alike |
| StandaloneServer.CallByName | src/index.ts:325-658 | calling a tool by its name answers with this server's handling of it |
| StandaloneServer.SanitizerInvisible | src/tools.ts:270-280 | answering with an upstream value or with its sanitized copy: the same text for a defined value; a text item whose `text` is undefined against an error for undefined; the error without or with the prefix |
| StandaloneServer.ChartWithoutSanitizer | src/index.ts:590-651 | both servers send the same JSON for a defined chart; an undefined chart is a text item whose `text` is undefined here but an error at the agent; a rejection, and a bound `parsePeriod` cannot read, arrive here as the bare error and at the agent with its chart prefix |
| StandaloneServer.QuoteSummaryWithoutSanitizer | src/index.ts:623-641 | the same comparison for the quote summary: the same JSON for a defined summary, and a rejection with or without the prefix |
| StandaloneServer.TrendingRegion | src/index.ts:438-449 | this server honours a region argument, while the agent always asks for US; without the argument they agree |
| StandaloneServer.MoversNotReshaped | src/index.ts:552-569 | this server hands on whatever the daily-movers endpoint answers, while the agent replaces any falsy title in the screener payload with "Day Gainers" |
| StandaloneServer.ServerDefaults | src/index.ts:438-588 | with only the required key given, this server asks for trending in "US", five insight reports, ten news items and ten movers, each in region "US" and language "en-US" |
| StandaloneServer.SearchNewsReads | src/index.ts:480-502 | the news result depends only on the query and the three search options |
| StandaloneServer.ResourcesAreDefaultToolCalls | src/index.ts:697-789 | each resource yields what the same-named tool yields when called with only its defaults (news with the query "market") |
| LlamaIndexTools.Wrapper | src/llamaindex-tools.ts:42-110 | a wrapper fails exactly when its operation rejects (with the same error) or resolves to undefined; otherwise it returns the sanitized value, which is plain JSON |
| LlamaIndexTools.ToolFactory | src/llamaindex-tools.ts:113-223 | each factory registers its operation with that operation's zod schema |
| LlamaIndexTools.Registered | src/llamaindex-tools.ts:226-241 | a list of factory calls yields one tool per operation, in order |
| LlamaIndexTools.FactoryNames | src/llamaindex-tools.ts:113-223 | each factory registers its operation under the name by which the agent dispatches that operation |
| LlamaIndexTools.RegistryMatchesAgentListing | src/llamaindex-tools.ts:226-241 | the full registry names the agent's tools in the agent's order, with the same parameter schemas |
| LlamaIndexTools.CategoryMembers | src/llamaindex-tools.ts:244-268 | which operations each of the basic, advanced, analysis and news lists holds |
| LlamaIndexTools.CategoriesPartitionRegistry | src/llamaindex-tools.ts:226-268 | every registered operation is in exactly one category, the category sizes add up to the registry, and the fourteen tools and their names are distinct |
| LlamaIndexTools.WrapperIdempotent | src/llamaindex-tools.ts:34-110 | sanitizing a wrapper's value again changes nothing, so double-sanitizing chart and quote summary is harmless |
| LlamaIndexTools.SanitizedResultsAreFixed | src/tools.ts:270-303 | chart and quote summary results are already fixed points of the sanitizer |
| LlamaIndexTools.WrapperAgreesWithAgent | src/llamaindex-tools.ts:42-110 | whenever a wrapper succeeds, the agent's response to the same tool spells out exactly the wrapper's value; on a rejection both report the same error |
| LlamaIndexTools.MissingNewsDiffers | src/tools.ts:155-163 | for every argument object and library, whenever the search result is an object without `news`, the registry's news tool fails with JSON's SyntaxError while the agent answers with a text item whose `text` is undefined |

## Left out

- Zod type validation is not modelled. Only the declared keys and defaults
  of each schema are. A call whose arguments have the wrong types is
  modelled as the code would run on them.
- Transports and process wiring are not modelled: stdio and SSE servers,
  `main`, and console logging (`console.error` in every catch has no
  effect on results).
- The two servers use different client objects: `src/tools.ts` the
  library's default export, `src/index.ts` a `new YahooFinance()` instance.
  The model gives both the same `Library`. Every comparison of the two
  servers (`StandaloneServer.SharedToolsAgree` and the lemmas that compare
  chart, quote summary and movers) assumes the two clients answer each
  call alike.
- The behaviour of the `yahoo-finance2` library is not modelled. It is the
  `Library` parameter: every call the code makes is a `Call` value with its
  exact arguments.
- `new Date(text)` parsing, `Date.prototype.toISOString` and the clock are
  not modelled. A resolved exact date keeps its text. The current instant
  is the parameter `now` with its ISO string. Every `new Date()` inside one operation
  reads the same instant: the two "now" bounds of one range and a result's
  `timestamp` are one clock reading in the model, where the runtime reads
  the clock separately each time.
- Floating point is not modelled. Numbers are finite reals, NaN or
  ±Infinity, and no arithmetic is done on them.
- The wording of engine errors is not modelled exactly; the model uses
  current V8 wording. A property read on undefined or null gives V8's
  TypeError text, and `JSON.parse` of undefined gives V8's SyntaxError
  text `"undefined" is not valid JSON` (older engines print
  "Unexpected token u in JSON at position 0").
- Rejection timing in `Promise.all`: of several rejected calls, the model
  reports the first by position, where the runtime reports the first to
  settle.
- Tools.AwaitAll: states only that the error is one of the inputs'
    errors, for this reason.
- `JSON.stringify` is not modelled for BigInt values, cyclic structures,
  functions, symbols or `toJSON` methods other than `Date`'s. None of these
  are part of the value model.
- It is not modelled whether LlamaIndex's `tool()` parses its input before
  calling the wrapper. `Tools.ParsedArgumentsAgree` shows this makes no
  difference.
- Tool and resource descriptions, titles and display names are not
  modelled. Listings keep names, URIs and input schemas only.
- No lemma compares the two servers' insights tools directly.
  `StandaloneServer.ServerDefaults` states the standalone server's call.
  It differs from the agent's call only by the extra `lang` and `region`
  options.
- JavaScript's property enumeration order is not modelled. An object's
  members keep the order in which they were written, and serialization
  keeps that order. JavaScript enumerates integer-like keys first, in
  ascending order. No key the code writes is integer-like, so for every
  object the code builds the two orders agree; for objects delivered by
  the library the model takes the library's order as given.
- `src/server.ts`, `src/cf-worker-agent.ts`, `src/mcp-server.ts` and
  `src/examples.ts` are not part of this model.

=== FILE: envelope.dfy ===
/** The tool-call response both protocol handlers build: a single text
    content item holding the serialized result, or an error text flagged
    `isError`. */
module Envelope {
  import opened Wrappers
  import opened JsValue
  import opened Json

  datatype ToolResponse =
      /** `{ content: [{ type: "text", text: JSON.stringify(result, null, 2) }] }`,
          without `isError`; `json` is the tree the text spells out (None when
          `JSON.stringify` returned undefined) */
    | TextResponse(json: Option<Value>)
      /** `{ content: [{ type: "text", text }], isError: true }` */
    | ErrorResponse(text: string)

  const NoArgumentsText: string := "Error: No arguments provided"

  function UnknownToolError(name: string): Thrown {
    Error("Unknown tool: " + name)
  }

  /** The `try`/`catch` around an operation: its result, or "Error: " and the
      message of what it threw. */
  function Respond(r: Result<Value, Thrown>): (resp: ToolResponse)
    ensures resp.TextResponse? <==> r.Success?
    ensures r.Success? ==> resp.json == Serialize(r.value)
    ensures r.Failure? ==> resp.text == "Error: " + MessageOr(r.error, "Unknown error")
  {
    match r
    case Success(v) => TextResponse(Serialize(v))
    case Failure(e) => ErrorResponse("Error: " + MessageOr(e, "Unknown error"))
  }

  /** What a resource read delivers. */
  datatype ResourceContents = ResourceContents(uri: string, mimeType: string, json: Option<Value>)

  function UnknownResourceError(uri: string): Thrown {
    Error("Unknown resource: " + uri)
  }

  /** The `try`/`catch` around a resource read: the contents, or a new Error
      "Failed to read resource <uri>: <message>". */
  function RespondResource(uri: string, r: Result<Value, Thrown>): (c: Result<ResourceContents, Thrown>)
    ensures c.Success? <==> r.Success?
    ensures r.Success? ==> c.value == ResourceContents(uri, "application/json", Serialize(r.value))
    ensures r.Failure? ==> c.error == Error("Failed to read resource " + uri + ": " + MessageOr(r.error, "Unknown error"))
  {
    match r
    case Success(v) => Success(ResourceContents(uri, "application/json", Serialize(v)))
    case Failure(e) => Failure(Error("Failed to read resource " + uri + ": " + MessageOr(e, "Unknown error")))
  }
}

=== FILE: js_value.dfy ===
/** The JavaScript values the gateway handles: tool arguments, upstream
    payloads and the results it hands back.  Only the behaviour the core
    relies on is modelled: truthiness (`x || d`), destructuring defaults
    (`{ x = d } = obj`), property reads, and what was thrown. */
module JsValue {
  import opened Wrappers

  /** An IEEE-754 double, abstracted: finite values are reals (so -0 and 0
      coincide, as they do for `||` and for JSON text), plus the non-finite
      values JSON cannot carry. */
  datatype Number = Finite(value: real) | NaN | Infinity(negative: bool)

  /** A valid time value, identified by its `toISOString` rendering.
      `toISOString` is injective on valid time values, so nothing is lost. */
  datatype Instant = Instant(iso: string)

  /** The time value inside a Date object: valid, or NaN ("Invalid Date"). */
  datatype TimeValue = At(instant: Instant) | InvalidTime

  datatype Value =
    | Undefined
    | Null
    | Bool(b: bool)
    | Num(n: Number)
    | Str(s: string)
    | Arr(items: seq<Value>)
    | Obj(members: seq<Member>)
    | DateObj(time: TimeValue)

  /** One own enumerable property of a plain object, in enumeration order. */
  datatype Member = Member(key: string, value: Value)

  type Object = seq<Member>

  /** What a `throw` delivered: an `Error` instance with its message, or any
      other value. */
  datatype Thrown = Error(message: string) | NotAnError(thrown: Value)

  /** `error instanceof Error ? error.message : fallback` */
  function MessageOr(t: Thrown, fallback: string): string {
    match t
    case Error(m) => m
    case NotAnError(_) => fallback
  }

  /** The falsy values of JavaScript: undefined, null, false, 0, NaN, "". */
  predicate Falsy(v: Value) {
    match v
    case Undefined => true
    case Null => true
    case Bool(b) => !b
    case Num(n) => n == NaN || n == Finite(0.0)
    case Str(s) => s == ""
    case _ => false
  }

  /** `x || d` */
  function OrElse(x: Value, d: Value): Value {
    if Falsy(x) then d else x
  }

  /** The default of a destructuring pattern or a schema default: it applies
      to `undefined` only. */
  function WithDefault(x: Value, d: Value): Value {
    if x.Undefined? then d else x
  }

  /** `obj[key]` on a plain object: the member's value, or undefined. */
  function Field(obj: Object, key: string): (r: Value)
    ensures r != Undefined ==> exists i :: 0 <= i < |obj| && obj[i] == Member(key, r)
    ensures (forall i :: 0 <= i < |obj| ==> obj[i].key != key) ==> r == Undefined
  {
    if obj == [] then Undefined
    else if obj[0].key == key then obj[0].value
    else Field(obj[1..], key)
  }

  /** The first member with a key is the one a read finds. */
  lemma {:induction false} FieldAt(obj: Object, i: nat)
    requires i < |obj|
    requires forall j :: 0 <= j < i ==> obj[j].key != obj[i].key
    ensures Field(obj, obj[i].key) == obj[i].value
  {
    if i > 0 {
      FieldAt(obj[1..], i - 1);
    }
  }

  /** Keys are distinct: a JavaScript object has each key at most once. */
  predicate UniqueKeys(obj: Object) {
    forall i, j :: 0 <= i < j < |obj| ==> obj[i].key != obj[j].key
  }

  /** In an object with distinct keys every member is found by its key. */
  lemma FieldOfDistinct(obj: Object)
    requires UniqueKeys(obj)
    ensures forall i :: 0 <= i < |obj| ==> Field(obj, obj[i].key) == obj[i].value
  {
    forall i | 0 <= i < |obj| ensures Field(obj, obj[i].key) == obj[i].value {
      FieldAt(obj, i);
    }
  }

  function Keys(obj: Object): (ks: seq<string>)
    ensures |ks| == |obj|
    ensures forall i :: 0 <= i < |obj| ==> ks[i] == obj[i].key
  {
    seq(|obj|, i requires 0 <= i < |obj| => obj[i].key)
  }

  /** A property read `v.key`.  Reading from undefined or null throws a
      TypeError (the message is the V8 engine's wording).  Primitives, arrays
      and dates have none of the keys the gateway reads, so they yield
      undefined. */
  function Prop(v: Value, key: string): (r: Result<Value, Thrown>)
    ensures r.Failure? <==> v.Undefined? || v.Null?
    ensures r.Failure? ==> r.error.Error?
    ensures v.Obj? ==> r == Success(Field(v.members, key))
  {
    match v
    case Undefined => Failure(Error("Cannot read properties of undefined (reading '" + key + "')"))
    case Null => Failure(Error("Cannot read properties of null (reading '" + key + "')"))
    case Obj(ms) => Success(Field(ms, key))
    case _ => Success(Undefined)
  }

  /** `x || d` keeps a truthy value and replaces every falsy one, so it
      replaces more than a destructuring default does: the two agree on
      undefined and on truthy values and nowhere else (when the default
      differs from the value). */
  lemma OrElseVersusDefault(x: Value, d: Value)
    ensures OrElse(x, d) == WithDefault(x, d) <==> x.Undefined? || !Falsy(x) || x == d
    ensures Falsy(x) ==> OrElse(x, d) == d
    ensures !Falsy(x) ==> OrElse(x, d) == x && WithDefault(x, d) == x
  {
  }
}

=== FILE: json.dfy ===
/** `JSON.stringify` and `JSON.parse(JSON.stringify(...))` on the value tree.

    Section 25.5.2.2 of ECMA-262 (SerializeJSONProperty) calls a value's
    `toJSON` before the replacer sees it, and `Date.prototype.toJSON`
    (section 21.4.4.37) returns `toISOString()` for a valid date and `null`
    for an invalid one.  So the replacer `value instanceof Date ?
    value.toISOString() : value` that the gateway passes never meets a Date,
    and the effective rewrite is the one `Serialize` states. */
module Json {
  import opened Wrappers
  import opened JsValue

  /** A value JSON text can carry: no undefined, no Date, finite numbers only. */
  predicate IsJson(v: Value) {
    match v
    case Undefined => false
    case DateObj(_) => false
    case Num(n) => n.Finite?
    case Arr(items) => forall i :: 0 <= i < |items| ==> IsJson(items[i])
    case Obj(ms) => forall i :: 0 <= i < |ms| ==> IsJson(ms[i].value)
    case _ => true
  }

  /** No Date object at any depth. */
  predicate NoDates(v: Value) {
    match v
    case DateObj(_) => false
    case Arr(items) => forall i :: 0 <= i < |items| ==> NoDates(items[i])
    case Obj(ms) => forall i :: 0 <= i < |ms| ==> NoDates(ms[i].value)
    case _ => true
  }

  /** The tree that `JSON.stringify(v)` writes as text, or None when it
      returns undefined instead of a string (for `v` undefined). */
  function Serialize(v: Value): (r: Option<Value>)
    ensures r.None? <==> v.Undefined?
    ensures r.Some? ==> IsJson(r.value)
  {
    match v
    case Undefined => None
    case Null => Some(Null)
    case Bool(_) => Some(v)
    case Num(n) => if n.Finite? then Some(v) else Some(Null)
    case Str(_) => Some(v)
    case DateObj(t) => if t.At? then Some(Str(t.instant.iso)) else Some(Null)
    case Arr(items) =>
      Some(Arr(seq(|items|, i requires 0 <= i < |items| => Serialize(items[i]).GetOr(Null))))
    case Obj(ms) => Some(Obj(SerializeMembers(ms)))
  }

  /** An object's members as written: a member whose value serializes to
      undefined is left out, every other one keeps its key and position. */
  function SerializeMembers(ms: seq<Member>): (r: seq<Member>)
    ensures |r| <= |ms|
    ensures forall i :: 0 <= i < |r| ==> IsJson(r[i].value)
  {
    if ms == [] then []
    else
      var rest := SerializeMembers(ms[1..]);
      match Serialize(ms[0].value)
      case None => rest
      case Some(w) => [Member(ms[0].key, w)] + rest
  }

  /** `JSON.parse(JSON.stringify(v, replacer))`: parsing the text back gives
      the serialized tree; parsing the undefined that `stringify` returns for
      an undefined input throws a SyntaxError. */
  function ToJson(v: Value): (r: Result<Value, Thrown>)
    ensures r.Failure? <==> v.Undefined?
    ensures r.Failure? ==> r.error == Error("\"undefined\" is not valid JSON")
    ensures r.Success? ==> Some(r.value) == Serialize(v)
    ensures r.Success? ==> IsJson(r.value) && NoDates(r.value)
  {
    match Serialize(v)
    case None => Failure(Error("\"undefined\" is not valid JSON"))
    case Some(w) => JsonHasNoDates(w); Success(w)
  }

  lemma {:induction false} JsonHasNoDates(v: Value)
    requires IsJson(v)
    ensures NoDates(v)
  {
    match v
    case Arr(items) =>
      forall i | 0 <= i < |items| ensures NoDates(items[i]) {
        JsonHasNoDates(items[i]);
      }
    case Obj(ms) =>
      forall i | 0 <= i < |ms| ensures NoDates(ms[i].value) {
        JsonHasNoDates(ms[i].value);
      }
    case _ =>
  }

  /** A JSON value is written as itself. */
  lemma {:induction false} SerializeJsonIsIdentity(v: Value)
    requires IsJson(v)
    ensures Serialize(v) == Some(v)
  {
    match v
    case Arr(items) =>
      forall i | 0 <= i < |items| ensures Serialize(items[i]) == Some(items[i]) {
        SerializeJsonIsIdentity(items[i]);
      }
      assert seq(|items|, i requires 0 <= i < |items| => Serialize(items[i]).GetOr(Null)) == items;
    case Obj(ms) =>
      MembersJsonIsIdentity(ms);
    case _ =>
  }

  lemma {:induction false} MembersJsonIsIdentity(ms: seq<Member>)
    requires forall i :: 0 <= i < |ms| ==> IsJson(ms[i].value)
    ensures SerializeMembers(ms) == ms
    decreases ms, 1
  {
    if ms != [] {
      SerializeJsonIsIdentity(ms[0].value);
      MembersJsonIsIdentity(ms[1..]);
    }
  }

  /** The sanitizer is idempotent: applying it to its own output changes
      nothing. */
  lemma ToJsonIdempotent(v: Value)
    requires ToJson(v).Success?
    ensures ToJson(ToJson(v).value) == ToJson(v)
  {
    SerializeJsonIsIdentity(ToJson(v).value);
  }

  /** Serializing an already serialized tree writes the same text, so
      sanitizing a result before `JSON.stringify` makes no difference. */
  lemma SerializeAfterToJson(v: Value)
    requires ToJson(v).Success?
    ensures Serialize(ToJson(v).value) == Serialize(v)
  {
    SerializeJsonIsIdentity(ToJson(v).value);
  }

  /** Leaves: strings, booleans, null and finite numbers are kept, a valid
      Date becomes its ISO string, an invalid one and a non-finite number
      become null. */
  lemma SerializeLeaves(v: Value)
    ensures v.Str? || v.Bool? || v.Null? || (v.Num? && v.n.Finite?) ==> Serialize(v) == Some(v)
    ensures v.Num? && !v.n.Finite? ==> Serialize(v) == Some(Null)
    ensures v.DateObj? && v.time.At? ==> Serialize(v) == Some(Str(v.time.instant.iso))
    ensures v.DateObj? && v.time.InvalidTime? ==> Serialize(v) == Some(Null)
  {
  }

  /** Arrays keep their length; an undefined slot is written as null and
      every other slot as its own serialization. */
  lemma SerializeArray(items: seq<Value>)
    ensures Serialize(Arr(items)).Some? && Serialize(Arr(items)).value.Arr?
    ensures |Serialize(Arr(items)).value.items| == |items|
    ensures forall i :: 0 <= i < |items| ==>
      Serialize(Arr(items)).value.items[i] ==
        (if items[i].Undefined? then Null else Serialize(items[i]).value)
  {
  }

  /** The keys that survive serialization: those whose value is not
      undefined, in their original order. */
  function DefinedKeys(ms: seq<Member>): seq<string> {
    if ms == [] then []
    else if ms[0].value.Undefined? then DefinedKeys(ms[1..])
    else [ms[0].key] + DefinedKeys(ms[1..])
  }

  /** Objects keep every key whose value is defined, in order, and each kept
      key maps to its value's serialization. */
  lemma {:induction false} SerializeObjectKeys(ms: seq<Member>)
    ensures Keys(SerializeMembers(ms)) == DefinedKeys(ms)
    ensures forall k :: Field(ms, k) != Undefined ==>
      Field(SerializeMembers(ms), k) == Serialize(Field(ms, k)).value
  {
    if ms != [] {
      SerializeObjectKeys(ms[1..]);
      var rest := SerializeMembers(ms[1..]);
      if ms[0].value.Undefined? {
        assert SerializeMembers(ms) == rest;
        forall k | Field(ms, k) != Undefined
          ensures Field(SerializeMembers(ms), k) == Serialize(Field(ms, k)).value
        {
          assert Field(ms, k) == Field(ms[1..], k);
        }
      } else {
        var w := Serialize(ms[0].value).value;
        assert SerializeMembers(ms) == [Member(ms[0].key, w)] + rest;
        assert Keys([Member(ms[0].key, w)] + rest) == [ms[0].key] + Keys(rest);
      }
    }
  }
}

=== FILE: llamaindex_tools.dfy ===
/** The LlamaIndex tool registry (src/llamaindex-tools.ts): each core
    operation wrapped so that its result is plain JSON, registered under its
    protocol name with its zod schema, and grouped into four categories. */
module LlamaIndexTools {
  import opened Wrappers
  import opened JsValue
  import opened Json
  import opened Schema
  import opened Upstream
  import opened Tools
  import opened Envelope
  import McpAgent

  /** `toJSON(await operation(params))`: the operation's rejection passes
      through, and its value is sanitized. */
  function Wrapper(op: Operation, params: Object, lib: Library, now: Instant): (r: Result<Value, Thrown>)
    ensures var result := Invoke(op, params, lib, now);
      r.Failure? <==> result.Failure? || result.value.Undefined?
    ensures var result := Invoke(op, params, lib, now);
      result.Failure? ==> r == result
    ensures var result := Invoke(op, params, lib, now);
      result.Success? ==> r == ToJson(result.value)
    ensures r.Success? ==> IsJson(r.value) && NoDates(r.value)
  {
    var result :- Invoke(op, params, lib, now);
    ToJson(result)
  }

  /** What `tool(wrapper, { name, description, parameters })` registers. */
  datatype RegisteredTool = RegisteredTool(name: string, parameters: Shape, op: Operation)

  /** The fourteen tool factories. */
  function ToolFactory(op: Operation): (t: RegisteredTool)
    ensures t.op == op && t.parameters == ShapeOf(op)
  {
    match op
    case Quote => RegisteredTool("get_quote", ShapeOf(op), op)
    case HistoricalData => RegisteredTool("get_historical_data", ShapeOf(op), op)
    case SearchSymbols => RegisteredTool("search_symbols", ShapeOf(op), op)
    case CompanyInfo => RegisteredTool("get_company_info", ShapeOf(op), op)
    case Recommendations => RegisteredTool("get_recommendations", ShapeOf(op), op)
    case TrendingSymbols => RegisteredTool("get_trending_symbols", ShapeOf(op), op)
    case MarketSummary => RegisteredTool("get_market_summary", ShapeOf(op), op)
    case News => RegisteredTool("get_news", ShapeOf(op), op)
    case Options => RegisteredTool("get_options", ShapeOf(op), op)
    case Insights => RegisteredTool("get_insights", ShapeOf(op), op)
    case DailyGainers => RegisteredTool("get_daily_gainers", ShapeOf(op), op)
    case DailyLosers => RegisteredTool("get_daily_losers", ShapeOf(op), op)
    case Chart => RegisteredTool("get_chart", ShapeOf(op), op)
    case QuoteSummary => RegisteredTool("get_quote_summary", ShapeOf(op), op)
  }

  /** Running a registered tool on an input object. */
  function RunTool(t: RegisteredTool, input: Object, lib: Library, now: Instant): Result<Value, Thrown> {
    Wrapper(t.op, input, lib, now)
  }

  /** The tools a list of factory calls produces. */
  function Registered(ops: seq<Operation>): (ts: seq<RegisteredTool>)
    ensures |ts| == |ops|
    ensures forall i :: 0 <= i < |ops| ==> ts[i] == ToolFactory(ops[i])
  {
    seq(|ops|, i requires 0 <= i < |ops| => ToolFactory(ops[i]))
  }

  /** `getAllYahooFinanceTools()` */
  const AllOps: seq<Operation> := [
    Quote, HistoricalData, SearchSymbols, CompanyInfo, Recommendations, TrendingSymbols,
    MarketSummary, News, Options, Insights, DailyGainers, DailyLosers, Chart, QuoteSummary
  ]

  /** `basicYahooFinanceTools()` */
  const BasicOps: seq<Operation> := [Quote, SearchSymbols, CompanyInfo, MarketSummary]

  /** `advancedYahooFinanceTools()` */
  const AdvancedOps: seq<Operation> := [HistoricalData, Chart, QuoteSummary, Options]

  /** `analysisYahooFinanceTools()` */
  const AnalysisOps: seq<Operation> := [Recommendations, Insights, DailyGainers, DailyLosers]

  /** `newsYahooFinanceTools()` */
  const NewsOps: seq<Operation> := [News, TrendingSymbols]

  function AllTools(): seq<RegisteredTool> {
    Registered(AllOps)
  }

  // --------------------------------------------------------------- lemmas

  /** The registry is the agent's tool list: same names in the same order,
      same parameter schemas. */
  lemma RegistryMatchesAgentListing()
    ensures AllOps == McpAgent.Catalog
    ensures |AllTools()| == |McpAgent.ListedTools|
    ensures forall i :: 0 <= i < |AllTools()| ==>
      && AllTools()[i].name == McpAgent.ListedTools[i].name
      && AllTools()[i].parameters == McpAgent.ListedTools[i].schema
  {
    McpAgent.ListingMatchesCatalog();
    forall i | 0 <= i < |AllOps| ensures ToolFactory(AllOps[i]).name == McpAgent.ListedTools[i].name {
      FactoryNames(AllOps[i]);
    }
  }

  /** Every factory registers its operation under the name the agent
      dispatches on. */
  lemma FactoryNames(op: Operation)
    ensures ToolFactory(op).name == McpAgent.ToolName(op)
    ensures McpAgent.ToolOf(ToolFactory(op).name) == Some(op)
  {
  }

  /** How many of the four category lists name an operation. */
  function CategoryCount(op: Operation): nat {
    (if op in BasicOps then 1 else 0) + (if op in AdvancedOps then 1 else 0) +
    (if op in AnalysisOps then 1 else 0) + (if op in NewsOps then 1 else 0)
  }

  /** The four categories split the registry: every registered operation is
      in exactly one category, the categories name nothing else, and the full
      list names fourteen distinct tools. */
  lemma CategoriesPartitionRegistry(op: Operation)
    ensures op in AllOps && CategoryCount(op) == 1
    ensures |BasicOps| + |AdvancedOps| + |AnalysisOps| + |NewsOps| == |AllOps|
    ensures forall i, j :: 0 <= i < j < |AllOps| ==> AllOps[i] != AllOps[j]
    ensures forall i, j :: 0 <= i < j < |AllOps| ==> AllTools()[i].name != AllTools()[j].name
  {
    CategoryOfOperation(op);
    RegistryDistinct();
  }

  lemma CategoryOfOperation(op: Operation)
    ensures op in AllOps && CategoryCount(op) == 1
  {
    assert AllOps[McpAgent.CatalogIndex(op)] == op;
    CategoryMembers(op);
  }

  /** Who is in which category list. */
  lemma CategoryMembers(op: Operation)
    ensures op in BasicOps <==> op.Quote? || op.SearchSymbols? || op.CompanyInfo? || op.MarketSummary?
    ensures op in AdvancedOps <==> op.HistoricalData? || op.Chart? || op.QuoteSummary? || op.Options?
    ensures op in AnalysisOps <==> op.Recommendations? || op.Insights? || op.DailyGainers? || op.DailyLosers?
    ensures op in NewsOps <==> op.News? || op.TrendingSymbols?
  {
  }


  lemma RegistryDistinct()
    ensures forall i, j :: 0 <= i < j < |AllOps| ==> AllOps[i] != AllOps[j]
    ensures forall i, j :: 0 <= i < j < |AllOps| ==> AllTools()[i].name != AllTools()[j].name
  {
    forall i, j | 0 <= i < j < |AllOps| ensures AllOps[i] != AllOps[j] && AllTools()[i].name != AllTools()[j].name {
      DistinctNames(i, j);
    }
  }

  lemma DistinctNames(i: nat, j: nat)
    requires i < j < |AllOps|
    ensures AllOps[i] != AllOps[j] && AllTools()[i].name != AllTools()[j].name
  {
    CatalogDistinct(i, j);
    FactoryNames(AllOps[i]);
    FactoryNames(AllOps[j]);
    McpAgent.ToolNameRoundTrip(AllOps[i], McpAgent.ToolName(AllOps[j]));
  }

  lemma CatalogDistinct(i: nat, j: nat)
    requires i < j < |AllOps|
    ensures AllOps[i] != AllOps[j]
  {
    assert McpAgent.CatalogIndex(AllOps[i]) == i by {
      assert i in {0, 1, 2, 3, 4, 5, 6, 7, 8, 9, 10, 11, 12, 13};
    }
    assert McpAgent.CatalogIndex(AllOps[j]) == j by {
      assert j in {0, 1, 2, 3, 4, 5, 6, 7, 8, 9, 10, 11, 12, 13};
    }
  }

  /** Sanitizing is idempotent: a wrapper's value passes through `toJSON`
      unchanged, so wrapping the already sanitized chart and quote summary a
      second time changes nothing. */
  lemma WrapperIdempotent(op: Operation, params: Object, lib: Library, now: Instant)
    requires Wrapper(op, params, lib, now).Success?
    ensures ToJson(Wrapper(op, params, lib, now).value) == Wrapper(op, params, lib, now)
  {
    SerializeJsonIsIdentity(Wrapper(op, params, lib, now).value);
  }

  /** The chart and quote summary results are plain JSON already. */
  lemma SanitizedResultsAreFixed(args: Object, lib: Library, now: Instant)
    ensures GetChart(args, lib, now).Success? ==>
      ToJson(GetChart(args, lib, now).value) == GetChart(args, lib, now)
    ensures GetQuoteSummary(args, lib).Success? ==>
      ToJson(GetQuoteSummary(args, lib).value) == GetQuoteSummary(args, lib)
  {
    if GetChart(args, lib, now).Success? {
      SerializeJsonIsIdentity(GetChart(args, lib, now).value);
    }
    if GetQuoteSummary(args, lib).Success? {
      SerializeJsonIsIdentity(GetQuoteSummary(args, lib).value);
    }
  }

  /** The registry and the agent deliver the same JSON: whenever a wrapper
      succeeds, the agent's response text for the same tool and arguments
      spells out exactly the wrapper's value; when the operation rejects,
      both report its error. */
  lemma WrapperAgreesWithAgent(op: Operation, params: Object, lib: Library, now: Instant)
    ensures Wrapper(op, params, lib, now).Success? ==>
      McpAgent.CallTool(McpAgent.ToolName(op), Some(params), lib, now) ==
      TextResponse(Some(Wrapper(op, params, lib, now).value))
    ensures Invoke(op, params, lib, now).Failure? ==>
      && Wrapper(op, params, lib, now) == Invoke(op, params, lib, now)
      && McpAgent.CallTool(McpAgent.ToolName(op), Some(params), lib, now) ==
         ErrorResponse("Error: " + MessageOr(Invoke(op, params, lib, now).error, "Unknown error"))
  {
    McpAgent.CallByName(op, params, lib, now);
    RespondSpellsOutJson(Invoke(op, params, lib, now));
  }

  /** The response text of a defined result spells out its sanitized copy. */
  lemma RespondSpellsOutJson(result: Result<Value, Thrown>)
    ensures result.Success? && !result.value.Undefined? ==>
      Respond(result) == TextResponse(Some(ToJson(result.value).value))
  {
    if result.Success? && !result.value.Undefined? {
      SerializeAfterToJson(result.value);
      SerializeJsonIsIdentity(ToJson(result.value).value);
    }
  }

  /** The two front ends part ways on an undefined result: whenever the
      search result is an object without a `news` member, the registry's
      news tool fails with JSON's SyntaxError while the agent answers with a
      text item whose `text` is undefined. */
  lemma MissingNewsDiffers(params: Object, lib: Library, now: Instant)
    ensures var up := lib(NewsRequest(params));
      up.Success? && up.value.Obj? && Field(up.value.members, "news").Undefined? ==>
        && Wrapper(News, params, lib, now) == Failure(Error("\"undefined\" is not valid JSON"))
        && McpAgent.CallTool(McpAgent.ToolName(News), Some(params), lib, now) == TextResponse(None)
  {
    McpAgent.CallByName(News, params, lib, now);
  }
}

=== FILE: mcp_agent.dfy ===
/** The MCP protocol handler of the gateway (src/mcp-agent.ts): the advertised
    tool list, the dispatch from a tool name to the core operation, the
    response envelope, and the five fixed resources. */
module McpAgent {
  import opened Wrappers
  import opened JsValue
  import opened Json
  import opened Schema
  import opened Tools
  import opened Envelope

  /** The protocol name of each operation. */
  function ToolName(op: Operation): string {
    match op
    case Quote => "get_quote"
    case HistoricalData => "get_historical_data"
    case SearchSymbols => "search_symbols"
    case CompanyInfo => "get_company_info"
    case Recommendations => "get_recommendations"
    case TrendingSymbols => "get_trending_symbols"
    case MarketSummary => "get_market_summary"
    case News => "get_news"
    case Options => "get_options"
    case Insights => "get_insights"
    case DailyGainers => "get_daily_gainers"
    case DailyLosers => "get_daily_losers"
    case Chart => "get_chart"
    case QuoteSummary => "get_quote_summary"
  }

  /** The `switch (name)` of the call handler: the operation a name selects,
      or None for the `default` branch. */
  function ToolOf(name: string): Option<Operation> {
    if name == "get_quote" then Some(Quote)
    else if name == "get_historical_data" then Some(HistoricalData)
    else if name == "search_symbols" then Some(SearchSymbols)
    else if name == "get_company_info" then Some(CompanyInfo)
    else if name == "get_recommendations" then Some(Recommendations)
    else if name == "get_trending_symbols" then Some(TrendingSymbols)
    else if name == "get_market_summary" then Some(MarketSummary)
    else if name == "get_news" then Some(News)
    else if name == "get_options" then Some(Options)
    else if name == "get_insights" then Some(Insights)
    else if name == "get_daily_gainers" then Some(DailyGainers)
    else if name == "get_daily_losers" then Some(DailyLosers)
    else if name == "get_chart" then Some(Chart)
    else if name == "get_quote_summary" then Some(QuoteSummary)
    else None
  }

  /** One entry of the tool list: its name and its JSON input schema, read as
      declared keys (`properties`) with their `default` or membership in
      `required`. */
  datatype ListedTool = ListedTool(name: string, schema: Shape)

  /** The answer to a list-tools request, in order. */
  const ListedTools: seq<ListedTool> := [
    ListedTool("get_quote", [FieldSpec("symbol", Required)]),
    ListedTool("get_historical_data",
      [FieldSpec("symbol", Required), FieldSpec("period1", Default(Str("1y"))),
       FieldSpec("period2", Default(Str("now"))), FieldSpec("interval", Default(Str("1d")))]),
    ListedTool("search_symbols", [FieldSpec("query", Required)]),
    ListedTool("get_company_info", [FieldSpec("symbol", Required)]),
    ListedTool("get_recommendations", [FieldSpec("symbol", Required)]),
    ListedTool("get_trending_symbols", []),
    ListedTool("get_market_summary", []),
    ListedTool("get_news", [FieldSpec("query", Required), FieldSpec("newsCount", Default(Int(10)))]),
    ListedTool("get_options",
      [FieldSpec("symbol", Required), FieldSpec("date", Optional), FieldSpec("formatted", Default(Bool(false)))]),
    ListedTool("get_insights", [FieldSpec("symbol", Required), FieldSpec("reportsCount", Default(Int(5)))]),
    ListedTool("get_daily_gainers", [FieldSpec("count", Default(Int(10)))]),
    ListedTool("get_daily_losers", [FieldSpec("count", Default(Int(10)))]),
    ListedTool("get_chart",
      [FieldSpec("symbol", Required), FieldSpec("period1", Default(Str("1mo"))),
       FieldSpec("period2", Default(Str("now"))), FieldSpec("interval", Default(Str("1d"))),
       FieldSpec("events", Default(Str("div|split|earn")))]),
    ListedTool("get_quote_summary",
      [FieldSpec("symbol", Required), FieldSpec("modules", Default(DefaultQuoteSummaryModules))])
  ]

  /** The fourteen operations in the order the tool list names them. */
  const Catalog: seq<Operation> := [
    Quote, HistoricalData, SearchSymbols, CompanyInfo, Recommendations, TrendingSymbols,
    MarketSummary, News, Options, Insights, DailyGainers, DailyLosers, Chart, QuoteSummary
  ]

  /** The call-tool handler: a request without arguments is refused before
      anything runs, an unknown name is an error, and otherwise the operation's
      result (or what it threw) goes into the envelope. */
  function CallTool(name: string, args: Option<Object>, lib: Upstream.Library, now: Instant): (resp: ToolResponse)
    ensures args.None? ==> resp == ErrorResponse(NoArgumentsText)
    ensures args.Some? && ToolOf(name).None? ==> resp == ErrorResponse("Error: " + UnknownToolError(name).message)
    ensures args.Some? && ToolOf(name).Some? ==>
      resp == Respond(Invoke(ToolOf(name).value, args.value, lib, now))
  {
    if args.None? then ErrorResponse(NoArgumentsText)
    else Respond(Dispatch(name, args.value, lib, now))
  }

  /** The `switch` with its `default: throw`. */
  function Dispatch(name: string, args: Object, lib: Upstream.Library, now: Instant): (r: Result<Value, Thrown>)
    ensures ToolOf(name).None? ==> r == Failure(UnknownToolError(name))
    ensures ToolOf(name).Some? ==> r == Invoke(ToolOf(name).value, args, lib, now)
  {
    match ToolOf(name)
    case None => Failure(UnknownToolError(name))
    case Some(op) => Invoke(op, args, lib, now)
  }

  // ------------------------------------------------------------ resources

  datatype Resource = MarketSummaryResource | TrendingResource | GainersResource | LosersResource | GeneralNewsResource

  /** The answer to a list-resources request: the URIs, in order. */
  const ListedResourceUris: seq<string> := [
    "yahoo-finance://market-summary",
    "yahoo-finance://trending-symbols",
    "yahoo-finance://daily-gainers",
    "yahoo-finance://daily-losers",
    "yahoo-finance://news/general"
  ]

  /** The URI under which each resource is listed. */
  function ResourceUri(res: Resource): string {
    match res
    case MarketSummaryResource => "yahoo-finance://market-summary"
    case TrendingResource => "yahoo-finance://trending-symbols"
    case GainersResource => "yahoo-finance://daily-gainers"
    case LosersResource => "yahoo-finance://daily-losers"
    case GeneralNewsResource => "yahoo-finance://news/general"
  }

  /** The `if (uri === …)` chain of the read handler. */
  function ResourceOf(uri: string): Option<Resource> {
    if uri == "yahoo-finance://market-summary" then Some(MarketSummaryResource)
    else if uri == "yahoo-finance://trending-symbols" then Some(TrendingResource)
    else if uri == "yahoo-finance://daily-gainers" then Some(GainersResource)
    else if uri == "yahoo-finance://daily-losers" then Some(LosersResource)
    else if uri == "yahoo-finance://news/general" then Some(GeneralNewsResource)
    else None
  }

  /** The operation each resource runs, and the fixed parameters it passes. */
  function ResourceRequest(res: Resource): (Operation, Object) {
    match res
    case MarketSummaryResource => (MarketSummary, [])
    case TrendingResource => (TrendingSymbols, [])
    case GainersResource => (DailyGainers, [Member("count", Int(10))])
    case LosersResource => (DailyLosers, [Member("count", Int(10))])
    case GeneralNewsResource => (News, [Member("query", Str("market")), Member("newsCount", Int(10))])
  }

  /** The read-resource handler: the contents of a known resource, or an
      error naming the URI (an unknown URI included). */
  function ReadResource(uri: string, lib: Upstream.Library, now: Instant): (c: Result<ResourceContents, Thrown>)
    ensures ResourceOf(uri).None? ==>
      c == Failure(Error("Failed to read resource " + uri + ": " + UnknownResourceError(uri).message))
    ensures ResourceOf(uri).Some? ==>
      var (op, params) := ResourceRequest(ResourceOf(uri).value);
      c == RespondResource(uri, Invoke(op, params, lib, now))
  {
    match ResourceOf(uri)
    case Some(res) => RespondResource(uri, Invoke(ResourceRequest(res).0, ResourceRequest(res).1, lib, now))
    case None => RespondResource(uri, Failure(UnknownResourceError(uri)))
  }

  // --------------------------------------------------------------- lemmas

  /** Names and operations correspond one to one: the dispatch finds every
      operation by its name, and a name it accepts is that operation's name. */
  lemma ToolNameRoundTrip(op: Operation, name: string)
    ensures ToolOf(ToolName(op)) == Some(op)
    ensures ToolOf(name) == Some(op) ==> name == ToolName(op)
  {
    ToolOfName(op);
    NameOfTool(name);
  }

  /** Calling a tool by its name runs its operation. */
  lemma CallByName(op: Operation, args: Object, lib: Upstream.Library, now: Instant)
    ensures CallTool(ToolName(op), Some(args), lib, now) == Respond(Invoke(op, args, lib, now))
  {
    ToolOfName(op);
  }

  lemma ToolOfName(op: Operation)
    ensures ToolOf(ToolName(op)) == Some(op)
  {
    match op {
      case Quote =>
      case HistoricalData =>
      case SearchSymbols =>
      case CompanyInfo =>
      case Recommendations =>
      case TrendingSymbols =>
      case MarketSummary =>
      case News =>
      case Options =>
      case Insights =>
      case DailyGainers =>
      case DailyLosers =>
      case Chart =>
      case QuoteSummary =>
    }
  }

  lemma NameOfTool(name: string)
    ensures ToolOf(name).Some? ==> name == ToolName(ToolOf(name).value)
  {
  }

  /** The tool list and the dispatch agree: the list names exactly the tools
      the handler accepts, in catalog order, each with the parameter schema of
      the operation it runs (same keys, same defaults, same required keys). */
  lemma ListedToolsAreDispatched(name: string)
    ensures |ListedTools| == |Catalog| == 14
    ensures forall i :: 0 <= i < |Catalog| ==>
      ListedTools[i].name == ToolName(Catalog[i]) && ListedTools[i].schema == ShapeOf(Catalog[i])
    ensures ToolOf(name).Some? <==> exists i :: 0 <= i < |ListedTools| && ListedTools[i].name == name
  {
    ListingMatchesCatalog();
    if ToolOf(name).Some? {
      NameOfTool(name);
      var i := CatalogIndex(ToolOf(name).value);
      assert ListedTools[i].name == name;
    } else {
      forall i | 0 <= i < |ListedTools| ensures ListedTools[i].name != name {
        ToolOfName(Catalog[i]);
      }
    }
  }

  /** Where an operation sits in the catalog. */
  function CatalogIndex(op: Operation): (i: nat)
    ensures i < |Catalog| && Catalog[i] == op
  {
    match op
    case Quote => 0 case HistoricalData => 1 case SearchSymbols => 2 case CompanyInfo => 3
    case Recommendations => 4 case TrendingSymbols => 5 case MarketSummary => 6 case News => 7
    case Options => 8 case Insights => 9 case DailyGainers => 10 case DailyLosers => 11
    case Chart => 12 case QuoteSummary => 13
  }

  /** Entry by entry, the list names the catalog's operations with their
      schemas. */
  lemma ListingMatchesCatalog()
    ensures |ListedTools| == |Catalog| == 14
    ensures forall i :: 0 <= i < |Catalog| ==>
      ListedTools[i].name == ToolName(Catalog[i]) && ListedTools[i].schema == ShapeOf(Catalog[i])
  {
    forall i | 0 <= i < |Catalog|
      ensures ListedTools[i].name == ToolName(Catalog[i]) && ListedTools[i].schema == ShapeOf(Catalog[i])
    {
      assert i in {0, 1, 2, 3, 4, 5, 6, 7, 8, 9, 10, 11, 12, 13};
    }
  }

  /** A call needs an `arguments` object even for the tools whose listed
      schema requires none: the market summary called without one is refused
      without a library call, whatever the library would answer. */
  lemma ArgumentsRequired(name: string, lib1: Upstream.Library, lib2: Upstream.Library, now1: Instant, now2: Instant)
    ensures CallTool(name, None, lib1, now1) == CallTool(name, None, lib2, now2)
    ensures ListedTools[6].name == "get_market_summary" && ListedTools[6].schema == []
    ensures CallTool("get_market_summary", None, lib1, now1) == ErrorResponse("Error: No arguments provided")
    ensures CallTool("get_market_summary", Some([]), lib1, now1) == Respond(GetMarketSummary([], lib1, now1))
  {
  }

  /** Only a listed tool with arguments can produce a result text. */
  lemma {:induction false} TextOnlyFromListedTools(name: string, args: Option<Object>, lib: Upstream.Library, now: Instant)
    requires CallTool(name, args, lib, now).TextResponse?
    ensures args.Some?
    ensures exists i :: 0 <= i < |ListedTools| && ListedTools[i].name == name
    ensures Invoke(ToolOf(name).value, args.value, lib, now).Success?
  {
    ListedToolsAreDispatched(name);
  }

  /** The resource list and the read handler agree: exactly the listed URIs
      are readable. */
  lemma ListedResourcesAreReadable(uri: string)
    ensures ResourceOf(uri).Some? <==> uri in ListedResourceUris
  {
  }

  /** URIs and resources correspond one to one. */
  lemma ResourceUriRoundTrip(res: Resource, uri: string)
    ensures ResourceOf(ResourceUri(res)) == Some(res)
    ensures ResourceOf(uri) == Some(res) ==> uri == ResourceUri(res)
  {
  }

  /** Each resource runs the operation of the tool of the same name with
      fixed arguments (ten movers; ten news items for the query "market"):
      reading it succeeds exactly when calling that tool yields a result
      text, and both carry the same JSON. */
  lemma ResourcesAreToolCalls(res: Resource, lib: Upstream.Library, now: Instant)
    ensures var (op, params) := ResourceRequest(res);
      var read := ReadResource(ResourceUri(res), lib, now);
      var call := CallTool(ToolName(op), Some(params), lib, now);
      && (read.Success? <==> call.TextResponse?)
      && (read.Success? ==> read.value.uri == ResourceUri(res) && read.value.json == call.json)
  {
    ResourceUriRoundTrip(res, ResourceUri(res));
    ToolNameRoundTrip(ResourceRequest(res).0, ToolName(ResourceRequest(res).0));
  }
}

=== FILE: period.dfy ===
/** The period resolver `parsePeriod` used for both bounds of the historical
    and chart operations: the sentinel "now" becomes the current instant, a
    string of shape YYYY-MM-DD becomes a Date built from it, and every other
    string is handed to the upstream library unchanged. */
module Period {
  import opened Wrappers
  import opened JsValue

  /** `\d` in a JavaScript regular expression: the ASCII digits 0 to 9. */
  predicate IsDigit(c: char) {
    '0' <= c <= '9'
  }

  /** The whole-string test `/^\d{4}-\d{2}-\d{2}$/`.  Without the `m` flag
      `$` matches at the end of input only, so the length is exactly ten.
      Only the shape is checked: "2024-13-45" passes. */
  predicate IsDateShape(s: string) {
    && |s| == 10
    && IsDigit(s[0]) && IsDigit(s[1]) && IsDigit(s[2]) && IsDigit(s[3])
    && s[4] == '-'
    && IsDigit(s[5]) && IsDigit(s[6])
    && s[7] == '-'
    && IsDigit(s[8]) && IsDigit(s[9])
  }

  /** One position of an anchored regular expression without repetition. */
  datatype CharClass = Digit | Literal(c: char)

  predicate ClassMatches(k: CharClass, c: char) {
    match k
    case Digit => IsDigit(c)
    case Literal(l) => c == l
  }

  /** `^\d{4}-\d{2}-\d{2}$` written out position by position. */
  const DatePattern: seq<CharClass> :=
    [Digit, Digit, Digit, Digit, Literal('-'), Digit, Digit, Literal('-'), Digit, Digit]

  /** An anchored match of a fixed-length pattern: same length, and every
      character in the class at its position. */
  predicate MatchesWhole(pattern: seq<CharClass>, s: string) {
    |s| == |pattern| && forall i :: 0 <= i < |s| ==> ClassMatches(pattern[i], s[i])
  }

  /** A left-to-right matcher that stops at the first mismatch. */
  method MatchAnchored(pattern: seq<CharClass>, s: string) returns (b: bool)
    ensures b <==> MatchesWhole(pattern, s)
  {
    if |s| != |pattern| {
      return false;
    }
    var i := 0;
    while i < |s|
      invariant 0 <= i <= |s|
      invariant forall j :: 0 <= j < i ==> ClassMatches(pattern[j], s[j])
    {
      if !ClassMatches(pattern[i], s[i]) {
        return false;
      }
      i := i + 1;
    }
    return true;
  }

  /** The position-by-position pattern and the shape predicate agree on
      every string. */
  lemma DatePatternIsDateShape(s: string)
    ensures MatchesWhole(DatePattern, s) <==> IsDateShape(s)
  {
    if IsDateShape(s) {
      forall i | 0 <= i < |s| ensures ClassMatches(DatePattern[i], s[i]) {
        assert i in {0, 1, 2, 3, 4, 5, 6, 7, 8, 9};
      }
    }
    if MatchesWhole(DatePattern, s) {
      assert ClassMatches(DatePattern[0], s[0]) && ClassMatches(DatePattern[1], s[1]);
      assert ClassMatches(DatePattern[2], s[2]) && ClassMatches(DatePattern[3], s[3]);
      assert ClassMatches(DatePattern[4], s[4]) && ClassMatches(DatePattern[5], s[5]);
      assert ClassMatches(DatePattern[6], s[6]) && ClassMatches(DatePattern[7], s[7]);
      assert ClassMatches(DatePattern[8], s[8]) && ClassMatches(DatePattern[9], s[9]);
    }
  }

  /** `period.match(/^\d{4}-\d{2}-\d{2}$/)` as a boolean. */
  method IsExactDate(period: string) returns (b: bool)
    ensures b <==> IsDateShape(period)
  {
    b := MatchAnchored(DatePattern, period);
    DatePatternIsDateShape(period);
  }

  /** What a period bound resolves to: the current instant, a Date to be
      built by `new Date(text)` (parsing is not modelled), or the string
      itself for the upstream library to interpret. */
  datatype PeriodArg = Now(at: Instant) | ExactDate(text: string) | Passthrough(text: string)

  /** `parsePeriod` with the clock `now` supplied by the caller.  Its
      regular-expression test is `IsDateShape`; `DatePatternIsDateShape`
      and `IsExactDate` show that this predicate is what the pattern
      accepts. */
  function ParsePeriod(period: string, now: Instant): (r: PeriodArg)
    ensures r.Now? <==> period == "now"
    ensures r.Now? ==> r.at == now
    ensures r.ExactDate? <==> IsDateShape(period)
    ensures r.Passthrough? <==> period != "now" && !IsDateShape(period)
    ensures !r.Now? ==> r.text == period
  {
    if period == "now" then Now(now)
    else if IsDateShape(period) then ExactDate(period)
    else Passthrough(period)
  }

  /** The string a resolved bound came from. */
  function PeriodSource(p: PeriodArg): string {
    match p
    case Now(_) => "now"
    case ExactDate(t) => t
    case Passthrough(t) => t
  }

  /** Resolution loses nothing: the original string can be read back from
      every result, and the result depends on the clock only for "now". */
  lemma ParsePeriodRoundTrip(period: string, now: Instant, later: Instant)
    ensures PeriodSource(ParsePeriod(period, now)) == period
    ensures period != "now" ==> ParsePeriod(period, now) == ParsePeriod(period, later)
  {
  }

  /** The cases the source documents: shape only, no calendar check, and
      relative tokens, the empty string and unpadded dates pass through. */
  lemma ParsePeriodExamples(now: Instant)
    ensures ParsePeriod("now", now) == Now(now)
    ensures ParsePeriod("2024-01-31", now) == ExactDate("2024-01-31")
    ensures ParsePeriod("2024-13-45", now) == ExactDate("2024-13-45")
    ensures ParsePeriod("1mo", now) == Passthrough("1mo")
    ensures ParsePeriod("1y", now) == Passthrough("1y")
    ensures ParsePeriod("", now) == Passthrough("")
    ensures ParsePeriod("2024-1-1", now) == Passthrough("2024-1-1")
    ensures ParsePeriod("2024-01-311", now) == Passthrough("2024-01-311")
  {
  }

  /** `parsePeriod` applied to whatever value the argument holds: a string
      is classified; for any other value `period === "now"` is false and
      calling `period.match` throws a TypeError. */
  function ParsePeriodValue(period: Value, now: Instant): (r: Result<PeriodArg, Thrown>)
    ensures r.Success? <==> period.Str?
    ensures period.Str? ==> r.value == ParsePeriod(period.s, now)
    ensures r.Failure? ==> r.error.Error?
  {
    match period
    case Str(s) => Success(ParsePeriod(s, now))
    case _ =>
      match Prop(period, "match")
      case Failure(e) => Failure(e)
      case Success(_) => Failure(Error("period.match is not a function"))
  }
}

=== FILE: schema.dfy ===
/** The part of a zod object schema the gateway depends on: which keys it
    declares, and the default it fills in for an absent key.  Type checking
    is not modelled. */
module Schema {
  import opened JsValue

  datatype FieldKind = Required | Optional | Default(value: Value)

  datatype FieldSpec = FieldSpec(key: string, kind: FieldKind)

  type Shape = seq<FieldSpec>

  predicate Declares(shape: Shape, key: string) {
    exists i :: 0 <= i < |shape| && shape[i].key == key
  }

  /** No key is declared twice. */
  predicate DistinctKeys(shape: Shape) {
    forall i, j :: 0 <= i < j < |shape| ==> shape[i].key != shape[j].key
  }

  /** What parsing hands on for one declared key: the argument when it is
      defined, else the declared default, else nothing. */
  function ParseField(spec: FieldSpec, args: Object): seq<Member> {
    var v := Field(args, spec.key);
    if !v.Undefined? then [Member(spec.key, v)]
    else match spec.kind
      case Default(d) => [Member(spec.key, d)]
      case _ => []
  }

  /** `schema.parse(args)` for arguments of the declared types: the declared
      keys in declaration order, defaults filled in, unknown keys stripped. */
  function Parse(shape: Shape, args: Object): Object {
    if shape == [] then []
    else ParseField(shape[0], args) + Parse(shape[1..], args)
  }

  /** The value a declared key has after parsing, read back: */
  function Parsed(spec: FieldSpec, args: Object): Value {
    match spec.kind
    case Default(d) => WithDefault(Field(args, spec.key), d)
    case _ => Field(args, spec.key)
  }

  /** A lookup in `a + b` finds the key in `a` when `a` has it, else in `b`. */
  lemma {:induction false} FieldOfAppend(a: Object, b: Object, key: string)
    ensures (exists i :: 0 <= i < |a| && a[i].key == key) ==> Field(a + b, key) == Field(a, key)
    ensures (forall i :: 0 <= i < |a| ==> a[i].key != key) ==> Field(a + b, key) == Field(b, key)
  {
    if a != [] {
      assert (a + b)[0] == a[0] && (a + b)[1..] == a[1..] + b;
      FieldOfAppend(a[1..], b, key);
      if a[0].key != key {
        if exists i :: 0 <= i < |a| && a[i].key == key {
          var i :| 0 <= i < |a| && a[i].key == key;
          assert a[1..][i - 1].key == key;
        } else {
          assert forall i :: 0 <= i < |a[1..]| ==> a[1..][i] == a[i + 1];
        }
      }
    } else {
      assert a + b == b;
    }
  }

  /** Parsing keeps the meaning of every declared key (a defaulted key reads
      as the argument or, when that is undefined, as the default) and strips
      every undeclared one. */
  lemma {:induction false} ParseFields(shape: Shape, args: Object, key: string)
    requires DistinctKeys(shape)
    ensures forall i :: 0 <= i < |shape| && shape[i].key == key ==>
      Field(Parse(shape, args), key) == Parsed(shape[i], args)
    ensures !Declares(shape, key) ==> Field(Parse(shape, args), key) == Undefined
  {
    if shape != [] {
      var head := ParseField(shape[0], args);
      var rest := Parse(shape[1..], args);
      assert DistinctKeys(shape[1..]) by {
        forall i, j | 0 <= i < j < |shape[1..]| ensures shape[1..][i].key != shape[1..][j].key {
          assert shape[1..][i] == shape[i + 1] && shape[1..][j] == shape[j + 1];
        }
      }
      ParseFields(shape[1..], args, key);
      FieldOfAppend(head, rest, key);
      if shape[0].key == key {
        forall i | 0 <= i < |shape| && shape[i].key == key
          ensures Field(Parse(shape, args), key) == Parsed(shape[i], args)
        {
          assert i == 0;
        }
      } else {
        assert Field(head, key) == Undefined;
        forall i | 0 <= i < |shape| && shape[i].key == key
          ensures Field(Parse(shape, args), key) == Parsed(shape[i], args)
        {
          assert shape[1..][i - 1] == shape[i];
        }
      }
    }
  }

  /** A default applied twice is applied once: a destructuring default
      that repeats the schema default changes nothing after parsing. */
  lemma DefaultAfterParse(shape: Shape, args: Object, i: nat, d: Value)
    requires DistinctKeys(shape)
    requires i < |shape| && shape[i].kind == Default(d)
    ensures WithDefault(Field(Parse(shape, args), shape[i].key), d) ==
            WithDefault(Field(args, shape[i].key), d)
  {
    ParseFields(shape, args, shape[i].key);
  }
}

=== FILE: standalone_server.dfy ===
/** The standalone MCP server (src/index.ts).  It answers the same tool and
    resource names as the agent but inlines every operation instead of
    calling the core: most cases are the core operation verbatim, five read
    extra region/language parameters, the screeners call the library's
    dedicated daily-movers endpoints without reshaping, and chart and quote
    summary are neither sanitized nor wrapped in a prefixed error. */
module StandaloneServer {
  import opened Wrappers
  import opened JsValue
  import opened Json
  import opened Schema
  import opened Upstream
  import opened Tools
  import opened Envelope
  import McpAgent

  /** The input schema this server advertises for each tool. */
  function AdvertisedShape(op: Operation): Shape {
    match op
    case TrendingSymbols => [FieldSpec("region", Default(Str("US")))]
    case News =>
      [FieldSpec("query", Required), FieldSpec("newsCount", Default(Int(10))),
       FieldSpec("region", Default(Str("US"))), FieldSpec("lang", Default(Str("en-US")))]
    case Insights =>
      [FieldSpec("symbol", Required), FieldSpec("reportsCount", Default(Int(5))),
       FieldSpec("lang", Default(Str("en-US"))), FieldSpec("region", Default(Str("US")))]
    case DailyGainers =>
      [FieldSpec("count", Default(Int(10))), FieldSpec("region", Default(Str("US"))),
       FieldSpec("lang", Default(Str("en-US")))]
    case DailyLosers =>
      [FieldSpec("count", Default(Int(10))), FieldSpec("region", Default(Str("US"))),
       FieldSpec("lang", Default(Str("en-US")))]
    case _ => ShapeOf(op)
  }

  /** `{ count = 10, region = "US", lang = "en-US" }` handed to the
      daily-movers endpoint. */
  function MoversOptions(args: Object): Object {
    [Member("count", Arg(args, "count", Int(10))),
     Member("region", Arg(args, "region", Str("US"))),
     Member("lang", Arg(args, "lang", Str("en-US")))]
  }

  /** `{ reportsCount = 5, lang = "en-US", region = "US" }` handed to the
      insights endpoint. */
  function InsightsOptions(args: Object): Object {
    [Member("reportsCount", Arg(args, "reportsCount", Int(5))),
     Member("lang", Arg(args, "lang", Str("en-US"))),
     Member("region", Arg(args, "region", Str("US")))]
  }

  /** `{ newsCount = 10, region = "US", lang = "en-US" }` handed to the
      search endpoint. */
  function NewsOptions(args: Object): Object {
    [Member("newsCount", Arg(args, "newsCount", Int(10))),
     Member("region", Arg(args, "region", Str("US"))),
     Member("lang", Arg(args, "lang", Str("en-US")))]
  }

  /** `search(query, { newsCount, region, lang }).news` */
  function SearchNews(args: Object, lib: Library): (r: Result<Value, Thrown>)
    ensures var up := lib(SearchCall(Field(args, "query"), Some(NewsOptions(args))));
      && (r.Success? <==> up.Success? && !up.value.Undefined? && !up.value.Null?)
      && (up.Failure? ==> r == up)
      && (up.Success? && up.value.Obj? ==> r == Success(Field(up.value.members, "news")))
  {
    var results :- lib(SearchCall(Field(args, "query"), Some(NewsOptions(args))));
    Prop(results, "news")
  }

  /** The body of each `case` of the call handler: the value it serializes. */
  function Handle(op: Operation, args: Object, lib: Library, now: Instant): (r: Result<Value, Thrown>)
    ensures op.Quote? ==> r == GetQuote(args, lib)
    ensures op.HistoricalData? ==> r == GetHistoricalData(args, lib, now)
    ensures op.SearchSymbols? ==> r == SearchForSymbols(args, lib)
    ensures op.CompanyInfo? ==> r == GetCompanyInfo(args, lib)
    ensures op.Recommendations? ==> r == GetRecommendations(args, lib)
    ensures op.TrendingSymbols? ==> r == lib(TrendingCall(Arg(args, "region", Str("US"))))
    ensures op.MarketSummary? ==> r == GetMarketSummary(args, lib, now)
    ensures op.News? ==> r == SearchNews(args, lib)
    ensures op.Options? ==> r == GetOptions(args, lib)
    ensures op.Insights? ==> r == lib(InsightsCall(Field(args, "symbol"), InsightsOptions(args)))
    ensures op.DailyGainers? ==> r == lib(DailyMoversCall(DayGainers, MoversOptions(args)))
    ensures op.DailyLosers? ==> r == lib(DailyMoversCall(DayLosers, MoversOptions(args)))
    ensures op.Chart? ==> r.Success? ==> ChartRequest(args, now).Success?
    ensures op.Chart? && ChartRequest(args, now).Failure? ==> r == Failure(ChartRequest(args, now).error)
    ensures op.Chart? && ChartRequest(args, now).Success? ==> r == lib(ChartRequest(args, now).value)
    ensures op.QuoteSummary? ==> r == lib(QuoteSummaryCall(Field(args, "symbol"), QuoteSummaryOptions(args)))
  {
    match op
    case Quote => GetQuote(args, lib)
    case HistoricalData => GetHistoricalData(args, lib, now)
    case SearchSymbols => SearchForSymbols(args, lib)
    case CompanyInfo => GetCompanyInfo(args, lib)
    case Recommendations => GetRecommendations(args, lib)
    case TrendingSymbols => lib(TrendingCall(Arg(args, "region", Str("US"))))
    case MarketSummary => GetMarketSummary(args, lib, now)
    case News => SearchNews(args, lib)
    case Options => GetOptions(args, lib)
    case Insights => lib(InsightsCall(Field(args, "symbol"), InsightsOptions(args)))
    case DailyGainers => lib(DailyMoversCall(DayGainers, MoversOptions(args)))
    case DailyLosers => lib(DailyMoversCall(DayLosers, MoversOptions(args)))
    case Chart =>
      var call :- ChartRequest(args, now);
      lib(call)
    case QuoteSummary => lib(QuoteSummaryCall(Field(args, "symbol"), QuoteSummaryOptions(args)))
  }

  /** The `switch (name)`, with the same names as the agent's. */
  function Dispatch(name: string, args: Object, lib: Library, now: Instant): (r: Result<Value, Thrown>)
    ensures McpAgent.ToolOf(name).None? ==> r == Failure(UnknownToolError(name))
    ensures McpAgent.ToolOf(name).Some? ==> r == Handle(McpAgent.ToolOf(name).value, args, lib, now)
  {
    match McpAgent.ToolOf(name)
    case None => Failure(UnknownToolError(name))
    case Some(op) => Handle(op, args, lib, now)
  }

  /** The call-tool handler: the same guard and envelope as the agent's. */
  function CallTool(name: string, args: Option<Object>, lib: Library, now: Instant): (resp: ToolResponse)
    ensures args.None? ==> resp == ErrorResponse(NoArgumentsText)
    ensures args.Some? && McpAgent.ToolOf(name).None? ==>
      resp == ErrorResponse("Error: " + UnknownToolError(name).message)
    ensures args.Some? && McpAgent.ToolOf(name).Some? ==>
      resp == Respond(Handle(McpAgent.ToolOf(name).value, args.value, lib, now))
  {
    if args.None? then ErrorResponse(NoArgumentsText)
    else Respond(Dispatch(name, args.value, lib, now))
  }

  /** What each resource serializes: the library is called directly with
      fixed parameters (trending for "US"; ten movers for "US" in "en-US";
      ten "market" news items). */
  function ResourceValue(res: McpAgent.Resource, lib: Library, now: Instant): Result<Value, Thrown> {
    match res
    case MarketSummaryResource => GetMarketSummary([], lib, now)
    case TrendingResource => lib(TrendingCall(Str("US")))
    case GainersResource =>
      lib(DailyMoversCall(DayGainers, [Member("count", Int(10)), Member("region", Str("US")), Member("lang", Str("en-US"))]))
    case LosersResource =>
      lib(DailyMoversCall(DayLosers, [Member("count", Int(10)), Member("region", Str("US")), Member("lang", Str("en-US"))]))
    case GeneralNewsResource =>
      var results :- lib(SearchCall(Str("market"), Some(
        [Member("newsCount", Int(10)), Member("region", Str("US")), Member("lang", Str("en-US"))])));
      Prop(results, "news")
  }

  /** The read-resource handler: the same URIs and error texts as the
      agent's. */
  function ReadResource(uri: string, lib: Library, now: Instant): (c: Result<ResourceContents, Thrown>)
    ensures McpAgent.ResourceOf(uri).None? ==>
      c == Failure(Error("Failed to read resource " + uri + ": " + UnknownResourceError(uri).message))
    ensures McpAgent.ResourceOf(uri).Some? ==>
      c == RespondResource(uri, ResourceValue(McpAgent.ResourceOf(uri).value, lib, now))
  {
    match McpAgent.ResourceOf(uri)
    case None => RespondResource(uri, Failure(UnknownResourceError(uri)))
    case Some(res) => RespondResource(uri, ResourceValue(res, lib, now))
  }

  // --------------------------------------------------------------- lemmas

  /** After parsing against this server's advertised schema a declared key
      reads as before. */
  lemma AdvertisedArg(op: Operation, args: Object, i: nat)
    requires i < |AdvertisedShape(op)|
    ensures var spec := AdvertisedShape(op)[i];
      spec.kind.Default? ==>
        Arg(Parse(AdvertisedShape(op), args), spec.key, spec.kind.value) == Arg(args, spec.key, spec.kind.value)
    ensures var spec := AdvertisedShape(op)[i];
      !spec.kind.Default? ==> Field(Parse(AdvertisedShape(op), args), spec.key) == Field(args, spec.key)
  {
    assert Schema.DistinctKeys(AdvertisedShape(op));
    ParseFields(AdvertisedShape(op), args, AdvertisedShape(op)[i].key);
  }

  lemma NewsParsedAgrees(args: Object, lib: Library, now: Instant)
    ensures Handle(News, Parse(AdvertisedShape(News), args), lib, now) == Handle(News, args, lib, now)
  {
    var op := News;
    AdvertisedArg(op, args, 0); AdvertisedArg(op, args, 1); AdvertisedArg(op, args, 2); AdvertisedArg(op, args, 3);
  }

  lemma InsightsParsedAgrees(args: Object, lib: Library, now: Instant)
    ensures Handle(Insights, Parse(AdvertisedShape(Insights), args), lib, now) == Handle(Insights, args, lib, now)
  {
    var op := Insights;
    AdvertisedArg(op, args, 0); AdvertisedArg(op, args, 1); AdvertisedArg(op, args, 2); AdvertisedArg(op, args, 3);
  }

  lemma MoversParsedAgree(op: Operation, args: Object)
    requires op == DailyGainers || op == DailyLosers
    ensures MoversOptions(Parse(AdvertisedShape(op), args)) == MoversOptions(args)
  {
    AdvertisedArg(op, args, 0); AdvertisedArg(op, args, 1); AdvertisedArg(op, args, 2);
  }

  /** The tools with one required key and no default. */
  lemma KeyOnlyParsedAgrees(op: Operation, args: Object, lib: Library, now: Instant)
    requires op in {Quote, SearchSymbols, CompanyInfo, Recommendations}
    ensures Handle(op, Parse(AdvertisedShape(op), args), lib, now) == Handle(op, args, lib, now)
  {
    AdvertisedArg(op, args, 0);
  }

  lemma TrendingParsedAgrees(args: Object, lib: Library, now: Instant)
    ensures Handle(TrendingSymbols, Parse(AdvertisedShape(TrendingSymbols), args), lib, now) ==
            Handle(TrendingSymbols, args, lib, now)
  {
    AdvertisedArg(TrendingSymbols, args, 0);
  }

  lemma MoversHandleParsedAgrees(op: Operation, args: Object, lib: Library, now: Instant)
    requires op == DailyGainers || op == DailyLosers
    ensures Handle(op, Parse(AdvertisedShape(op), args), lib, now) == Handle(op, args, lib, now)
  {
    MoversParsedAgree(op, args);
  }

  lemma QuoteSummaryHandleParsedAgrees(args: Object, lib: Library, now: Instant)
    ensures Handle(QuoteSummary, Parse(AdvertisedShape(QuoteSummary), args), lib, now) ==
            Handle(QuoteSummary, args, lib, now)
  {
    AdvertisedArg(QuoteSummary, args, 0); AdvertisedArg(QuoteSummary, args, 1);
  }

  /** Seven cases are the core operation itself. */
  lemma HandleIsInvoke(op: Operation, args: Object, lib: Library, now: Instant)
    requires op in {Quote, HistoricalData, SearchSymbols, CompanyInfo, Recommendations, MarketSummary, Options}
    ensures AdvertisedShape(op) == ShapeOf(op)
    ensures Handle(op, args, lib, now) == Invoke(op, args, lib, now)
  {
  }

  lemma SharedParsedAgrees(op: Operation, args: Object, lib: Library, now: Instant)
    requires op in {HistoricalData, MarketSummary, Options}
    ensures Handle(op, Parse(AdvertisedShape(op), args), lib, now) == Handle(op, args, lib, now)
  {
    HandleIsInvoke(op, args, lib, now);
    HandleIsInvoke(op, Parse(AdvertisedShape(op), args), lib, now);
    ParsedArgumentsAgree(op, args, lib, now);
  }

  lemma ChartHandleParsedAgrees(args: Object, lib: Library, now: Instant)
    ensures Handle(Chart, Parse(AdvertisedShape(Chart), args), lib, now) == Handle(Chart, args, lib, now)
  {
    assert AdvertisedShape(Chart) == ShapeOf(Chart);
    ChartRequestParsedAgrees(args, now);
  }

  /** The advertised schema states this server's own defaults: handling the
      arguments filled in from the schema's defaults (and stripped of
      undeclared keys) gives what handling the raw arguments gives. */
  lemma {:induction false} AdvertisedDefaultsAreApplied(op: Operation, args: Object, lib: Library, now: Instant)
    ensures Handle(op, Parse(AdvertisedShape(op), args), lib, now) == Handle(op, args, lib, now)
  {
    if op in {Quote, SearchSymbols, CompanyInfo, Recommendations} {
      KeyOnlyParsedAgrees(op, args, lib, now);
    } else if op in {HistoricalData, MarketSummary, Options} {
      SharedParsedAgrees(op, args, lib, now);
    } else if op == Chart {
      ChartHandleParsedAgrees(args, lib, now);
    } else if op == TrendingSymbols {
      TrendingParsedAgrees(args, lib, now);
    } else if op == News {
      NewsParsedAgrees(args, lib, now);
    } else if op == Insights {
      InsightsParsedAgrees(args, lib, now);
    } else if op == QuoteSummary {
      QuoteSummaryHandleParsedAgrees(args, lib, now);
    } else {
      MoversHandleParsedAgrees(op, args, lib, now);
    }
  }

  /** Seven tools behave exactly as the agent's: same library calls, same
      result, same response. */
  lemma SharedToolsAgree(op: Operation, args: Option<Object>, lib: Library, now: Instant)
    requires op in {Quote, HistoricalData, SearchSymbols, CompanyInfo, Recommendations, MarketSummary, Options}
    ensures AdvertisedShape(op) == ShapeOf(op)
    ensures CallTool(McpAgent.ToolName(op), args, lib, now) == McpAgent.CallTool(McpAgent.ToolName(op), args, lib, now)
  {
    McpAgent.ToolNameRoundTrip(op, McpAgent.ToolName(op));
    if args.Some? {
      HandleIsInvoke(op, args.value, lib, now);
    }
  }

  /** The chart without the sanitizer: whenever the library delivers a
      defined chart both servers send the same JSON (serializing already
      turns Dates into ISO strings); an undefined chart is a text item
      whose `text` is undefined here and an error at the agent; a rejection,
      and a bound `parsePeriod` cannot read, reach the client without the
      agent's prefix. */
  lemma ChartWithoutSanitizer(args: Object, lib: Library, now: Instant)
    ensures ChartRequest(args, now).Success? ==>
      var up := lib(ChartRequest(args, now).value);
      up.Success? && !up.value.Undefined? ==>
        && CallTool("get_chart", Some(args), lib, now).TextResponse?
        && CallTool("get_chart", Some(args), lib, now) == McpAgent.CallTool("get_chart", Some(args), lib, now)
    ensures ChartRequest(args, now).Success? ==>
      var up := lib(ChartRequest(args, now).value);
      up == Success(Undefined) ==>
        && CallTool("get_chart", Some(args), lib, now) == TextResponse(None)
        && McpAgent.CallTool("get_chart", Some(args), lib, now).ErrorResponse?
    ensures ChartRequest(args, now).Success? ==>
      var up := lib(ChartRequest(args, now).value);
      up.Failure? ==>
        && CallTool("get_chart", Some(args), lib, now) == ErrorResponse("Error: " + MessageOr(up.error, "Unknown error"))
        && McpAgent.CallTool("get_chart", Some(args), lib, now) ==
             ErrorResponse("Error: " + ChartErrorPrefix + MessageOr(up.error, "未知错误"))
    ensures ChartRequest(args, now).Failure? ==>
      var e := ChartRequest(args, now).error;
      && CallTool("get_chart", Some(args), lib, now) == ErrorResponse("Error: " + MessageOr(e, "Unknown error"))
      && McpAgent.CallTool("get_chart", Some(args), lib, now) ==
           ErrorResponse("Error: " + ChartErrorPrefix + MessageOr(e, "未知错误"))
  {
    if ChartRequest(args, now).Success? {
      var up := lib(ChartRequest(args, now).value);
      ChartCalls(args, lib, now);
      ChartIsSanitized(args, lib, now);
      SanitizerInvisible(ChartErrorPrefix, up);
    } else {
      UnbuiltChartCalls(args, lib, now);
    }
  }

  /** A chart request that cannot be built: the bare `parsePeriod` error
      here, the same error under the chart prefix at the agent. */
  lemma UnbuiltChartCalls(args: Object, lib: Library, now: Instant)
    requires ChartRequest(args, now).Failure?
    ensures CallTool("get_chart", Some(args), lib, now) == Respond(Failure(ChartRequest(args, now).error))
    ensures McpAgent.CallTool("get_chart", Some(args), lib, now) ==
      Respond(Failure(Error(ChartErrorPrefix + MessageOr(ChartRequest(args, now).error, "未知错误"))))
  {
    CallByName(Chart, args, lib, now);
    AgentChartCall(args, lib, now);
  }

  /** Answering with an upstream result as it is, or with its sanitized copy:
      the same JSON for a defined value; for an undefined one, a text item
      whose `text` is undefined or an error; and the error with or without the prefix. */
  lemma SanitizerInvisible(prefix: string, up: Result<Value, Thrown>)
    ensures up.Success? && !up.value.Undefined? ==>
      Respond(up).TextResponse? && Respond(up) == Respond(Sanitize(prefix, up))
    ensures up == Success(Undefined) ==>
      Respond(up) == TextResponse(None) && Respond(Sanitize(prefix, up)).ErrorResponse?
    ensures up.Failure? ==>
      && Respond(up) == ErrorResponse("Error: " + MessageOr(up.error, "Unknown error"))
      && Respond(Sanitize(prefix, up)) == ErrorResponse("Error: " + prefix + MessageOr(up.error, "未知错误"))
  {
    if up.Success? && !up.value.Undefined? {
      SerializeAfterToJson(up.value);
    }
  }

  /** Both chart responses in terms of the one upstream call. */
  lemma ChartCalls(args: Object, lib: Library, now: Instant)
    requires ChartRequest(args, now).Success?
    ensures CallTool("get_chart", Some(args), lib, now) == Respond(lib(ChartRequest(args, now).value))
    ensures McpAgent.CallTool("get_chart", Some(args), lib, now) == Respond(GetChart(args, lib, now))
  {
    ServerChartCall(args, lib, now);
    AgentChartCall(args, lib, now);
  }

  lemma ServerChartCall(args: Object, lib: Library, now: Instant)
    requires ChartRequest(args, now).Success?
    ensures CallTool("get_chart", Some(args), lib, now) == Respond(lib(ChartRequest(args, now).value))
  {
    CallByName(Chart, args, lib, now);
  }

  lemma AgentChartCall(args: Object, lib: Library, now: Instant)
    ensures McpAgent.CallTool("get_chart", Some(args), lib, now) == Respond(GetChart(args, lib, now))
  {
    McpAgent.CallByName(Chart, args, lib, now);
  }

  /** Calling a tool by its name runs this server's handling of it. */
  lemma CallByName(op: Operation, args: Object, lib: Library, now: Instant)
    ensures CallTool(McpAgent.ToolName(op), Some(args), lib, now) == Respond(Handle(op, args, lib, now))
  {
    McpAgent.ToolOfName(op);
  }

  /** The same for the quote summary. */
  lemma QuoteSummaryWithoutSanitizer(args: Object, lib: Library, now: Instant)
    ensures var up := lib(QuoteSummaryCall(Field(args, "symbol"), QuoteSummaryOptions(args)));
      up.Success? && !up.value.Undefined? ==>
        CallTool("get_quote_summary", Some(args), lib, now) ==
        McpAgent.CallTool("get_quote_summary", Some(args), lib, now)
    ensures var up := lib(QuoteSummaryCall(Field(args, "symbol"), QuoteSummaryOptions(args)));
      up.Failure? ==>
        && CallTool("get_quote_summary", Some(args), lib, now) ==
             ErrorResponse("Error: " + MessageOr(up.error, "Unknown error"))
        && McpAgent.CallTool("get_quote_summary", Some(args), lib, now) ==
             ErrorResponse("Error: " + QuoteSummaryErrorPrefix + MessageOr(up.error, "未知错误"))
  {
    var up := lib(QuoteSummaryCall(Field(args, "symbol"), QuoteSummaryOptions(args)));
    CallByName(QuoteSummary, args, lib, now);
    McpAgent.CallByName(QuoteSummary, args, lib, now);
    SanitizerInvisible(QuoteSummaryErrorPrefix, up);
  }

  /** Trending symbols honour a `region` argument here; the agent always
      asks for "US".  Without the argument the two agree. */
  lemma TrendingRegion(args: Object, lib: Library, now: Instant)
    ensures Handle(TrendingSymbols, args, lib, now) == lib(TrendingCall(WithDefault(Field(args, "region"), Str("US"))))
    ensures Invoke(TrendingSymbols, args, lib, now) == lib(TrendingCall(Str("US")))
    ensures Field(args, "region").Undefined? ==>
      Handle(TrendingSymbols, args, lib, now) == Invoke(TrendingSymbols, args, lib, now)
  {
  }

  /** The movers are delivered as the library returns them: this server
      hands on whatever the daily-movers endpoint answers, while the agent
      fills a falsy title of the screener payload with "Day Gainers". */
  lemma MoversNotReshaped(lib: Library, now: Instant)
    ensures Handle(DailyGainers, [], lib, now) == lib(DailyMoversCall(DayGainers, MoversOptions([])))
    ensures var up := lib(ScreenerRequest(DayGainers, []));
      up.Success? && up.value.Obj? && Falsy(Field(up.value.members, "title")) ==>
        && GetDailyGainers([], lib, now).Success?
        && Field(GetDailyGainers([], lib, now).value.members, "title") == Str("Day Gainers")
  {
    var up := lib(ScreenerRequest(DayGainers, []));
    if up.Success? && up.value.Obj? {
      FetchScreenerShapes(DayGainers, [], lib, now);
      ShapedMember(DayGainers, up.value, now, 0);
      assert ScreenerDefaults(DayGainers)[0] == Member("title", Str("Day Gainers"));
    }
  }

  /** With only the required key given, this server asks the library with
      its own defaults: trending for "US", five insight reports, ten news
      items and ten movers, each in region "US" and language "en-US". */
  lemma ServerDefaults(symbol: Value, query: Value, lib: Library, now: Instant)
    ensures Handle(TrendingSymbols, [], lib, now) == lib(TrendingCall(Str("US")))
    ensures Handle(Insights, [Member("symbol", symbol)], lib, now) ==
      lib(InsightsCall(symbol, [Member("reportsCount", Int(5)), Member("lang", Str("en-US")), Member("region", Str("US"))]))
    ensures Handle(News, [Member("query", query)], lib, now) ==
      Handle(News, [Member("query", query), Member("newsCount", Int(10)),
                    Member("region", Str("US")), Member("lang", Str("en-US"))], lib, now)
    ensures Handle(DailyGainers, [], lib, now) ==
      lib(DailyMoversCall(DayGainers, [Member("count", Int(10)), Member("region", Str("US")), Member("lang", Str("en-US"))]))
    ensures Handle(DailyLosers, [], lib, now) ==
      lib(DailyMoversCall(DayLosers, [Member("count", Int(10)), Member("region", Str("US")), Member("lang", Str("en-US"))]))
  {
    MoversResourceIsDefaultCall(lib, now);
    InsightsServerDefault(symbol, lib, now);
    NewsServerDefault(query, lib, now);
  }

  lemma InsightsServerDefault(symbol: Value, lib: Library, now: Instant)
    ensures Handle(Insights, [Member("symbol", symbol)], lib, now) ==
      lib(InsightsCall(symbol, [Member("reportsCount", Int(5)), Member("lang", Str("en-US")), Member("region", Str("US"))]))
  {
    assert InsightsOptions([Member("symbol", symbol)]) ==
      [Member("reportsCount", Int(5)), Member("lang", Str("en-US")), Member("region", Str("US"))];
  }

  lemma NewsServerDefault(query: Value, lib: Library, now: Instant)
    ensures Handle(News, [Member("query", query)], lib, now) ==
      Handle(News, [Member("query", query), Member("newsCount", Int(10)),
                    Member("region", Str("US")), Member("lang", Str("en-US"))], lib, now)
  {
    var news: Object := [Member("query", query), Member("newsCount", Int(10)),
                         Member("region", Str("US")), Member("lang", Str("en-US"))];
    NewsOptionsDefault(query);
    SearchNewsReads([Member("query", query)], news, lib);
  }

  lemma NewsOptionsDefault(query: Value)
    ensures var news: Object := [Member("query", query), Member("newsCount", Int(10)),
                                 Member("region", Str("US")), Member("lang", Str("en-US"))];
      Field(news, "query") == query && NewsOptions(news) == NewsOptions([Member("query", query)])
  {
    NewsOptionsSpelledOut(query);
    NewsOptionsOfQueryOnly(query);
  }

  const DefaultNewsOptions: Object :=
    [Member("newsCount", Int(10)), Member("region", Str("US")), Member("lang", Str("en-US"))]

  lemma NewsOptionsSpelledOut(query: Value)
    ensures var news: Object := [Member("query", query), Member("newsCount", Int(10)),
                                 Member("region", Str("US")), Member("lang", Str("en-US"))];
      NewsOptions(news) == DefaultNewsOptions
  {
    var news: Object := [Member("query", query), Member("newsCount", Int(10)),
                         Member("region", Str("US")), Member("lang", Str("en-US"))];
    FieldAt(news, 1); FieldAt(news, 2); FieldAt(news, 3);
  }

  lemma NewsOptionsOfQueryOnly(query: Value)
    ensures NewsOptions([Member("query", query)]) == DefaultNewsOptions
  {
    var args: Object := [Member("query", query)];
    assert Field(args, "newsCount") == Undefined && Field(args, "region") == Undefined;
    assert Field(args, "lang") == Undefined;
  }

  /** The news search reads the query and the three options only. */
  lemma SearchNewsReads(a: Object, b: Object, lib: Library)
    requires Field(a, "query") == Field(b, "query") && NewsOptions(a) == NewsOptions(b)
    ensures SearchNews(a, lib) == SearchNews(b, lib)
  {
  }

  /** Each resource is the matching tool called with its defaults: reading a
      resource yields the value the tool yields for the parameters shown. */
  lemma ResourcesAreDefaultToolCalls(lib: Library, now: Instant)
    ensures ResourceValue(McpAgent.MarketSummaryResource, lib, now) == Handle(MarketSummary, [], lib, now)
    ensures ResourceValue(McpAgent.TrendingResource, lib, now) == Handle(TrendingSymbols, [], lib, now)
    ensures ResourceValue(McpAgent.GainersResource, lib, now) == Handle(DailyGainers, [], lib, now)
    ensures ResourceValue(McpAgent.LosersResource, lib, now) == Handle(DailyLosers, [], lib, now)
    ensures ResourceValue(McpAgent.GeneralNewsResource, lib, now) ==
      Handle(News, [Member("query", Str("market"))], lib, now)
  {
    MoversResourceIsDefaultCall(lib, now);
    NewsResourceIsDefaultCall(lib, now);
  }

  lemma MoversResourceIsDefaultCall(lib: Library, now: Instant)
    ensures ResourceValue(McpAgent.GainersResource, lib, now) == Handle(DailyGainers, [], lib, now)
    ensures ResourceValue(McpAgent.LosersResource, lib, now) == Handle(DailyLosers, [], lib, now)
  {
    assert MoversOptions([]) == [Member("count", Int(10)), Member("region", Str("US")), Member("lang", Str("en-US"))];
  }

  lemma NewsResourceIsDefaultCall(lib: Library, now: Instant)
    ensures ResourceValue(McpAgent.GeneralNewsResource, lib, now) ==
      Handle(News, [Member("query", Str("market"))], lib, now)
  {
    var query: Object := [Member("query", Str("market"))];
    assert Field(query, "query") == Str("market");
    assert Field(query, "newsCount") == Undefined;
    assert Field(query, "region") == Undefined;
    assert Field(query, "lang") == Undefined;
  }
}

=== FILE: tools.dfy ===
/** The fourteen core operations of the gateway (src/tools.ts): their
    parameter schemas, the defaults they apply, the library calls they make,
    and what they do with the results. */
module Tools {
  import opened Wrappers
  import opened JsValue
  import opened Json
  import opened Period
  import opened Upstream
  import opened Schema

  datatype Operation =
    | Quote | HistoricalData | SearchSymbols | CompanyInfo | Recommendations
    | TrendingSymbols | MarketSummary | News | Options | Insights
    | DailyGainers | DailyLosers | Chart | QuoteSummary

  /** A JavaScript number literal. */
  function Int(n: int): Value {
    Num(Finite(n as real))
  }

  /** A parameter after its destructuring default `{ key = d } = params`. */
  function Arg(args: Object, key: string, d: Value): Value {
    WithDefault(Field(args, key), d)
  }

  const DefaultQuoteSummaryModules: Value :=
    Arr([Str("summaryDetail"), Str("financialData"), Str("recommendationTrend"), Str("defaultKeyStatistics")])

  /** The zod schema of each operation's parameters. */
  function ShapeOf(op: Operation): Shape {
    match op
    case Quote => [FieldSpec("symbol", Required)]
    case HistoricalData =>
      [FieldSpec("symbol", Required), FieldSpec("period1", Default(Str("1y"))),
       FieldSpec("period2", Default(Str("now"))), FieldSpec("interval", Default(Str("1d")))]
    case SearchSymbols => [FieldSpec("query", Required)]
    case CompanyInfo => [FieldSpec("symbol", Required)]
    case Recommendations => [FieldSpec("symbol", Required)]
    case TrendingSymbols => []
    case MarketSummary => []
    case News => [FieldSpec("query", Required), FieldSpec("newsCount", Default(Int(10)))]
    case Options =>
      [FieldSpec("symbol", Required), FieldSpec("date", Optional), FieldSpec("formatted", Default(Bool(false)))]
    case Insights => [FieldSpec("symbol", Required), FieldSpec("reportsCount", Default(Int(5)))]
    case DailyGainers => [FieldSpec("count", Default(Int(10)))]
    case DailyLosers => [FieldSpec("count", Default(Int(10)))]
    case Chart =>
      [FieldSpec("symbol", Required), FieldSpec("period1", Default(Str("1mo"))),
       FieldSpec("period2", Default(Str("now"))), FieldSpec("interval", Default(Str("1d"))),
       FieldSpec("events", Default(Str("div|split|earn")))]
    case QuoteSummary => [FieldSpec("symbol", Required), FieldSpec("modules", Default(DefaultQuoteSummaryModules))]
  }

  /** `catch (error) { throw new Error(prefix + message) }` with the
      fallback text "未知错误" ("unknown error") for a non-Error. */
  function Rethrow<T>(prefix: string, r: Result<T, Thrown>): (w: Result<T, Thrown>)
    ensures w.Success? <==> r.Success?
    ensures r.Success? ==> w == r
    ensures r.Failure? ==> w.error == Error(prefix + MessageOr(r.error, "未知错误"))
  {
    match r
    case Success(_) => r
    case Failure(e) => Failure(Error(prefix + MessageOr(e, "未知错误")))
  }

  // ---------------------------------------------------------------- periods

  /** Both bounds of a range, `{ period1 = start, period2 = "now" }`, each
      through `parsePeriod`; the first bound is resolved first. */
  function ResolveBounds(args: Object, start: string, now: Instant): (r: Result<(PeriodArg, PeriodArg), Thrown>)
    ensures r.Success? <==>
      (Field(args, "period1").Undefined? || Field(args, "period1").Str?) &&
      (Field(args, "period2").Undefined? || Field(args, "period2").Str?)
    ensures r.Success? && Field(args, "period1").Undefined? ==> r.value.0 == ParsePeriod(start, now)
    ensures r.Success? && Field(args, "period1").Str? ==> r.value.0 == ParsePeriod(Field(args, "period1").s, now)
    ensures r.Success? && Field(args, "period2").Undefined? ==> r.value.1 == Now(now)
    ensures r.Success? && Field(args, "period2").Str? ==> r.value.1 == ParsePeriod(Field(args, "period2").s, now)
    ensures r.Failure? && !Field(args, "period1").Undefined? && !Field(args, "period1").Str? ==>
      r.error == ParsePeriodValue(Field(args, "period1"), now).error
    ensures r.Failure? && (Field(args, "period1").Undefined? || Field(args, "period1").Str?) ==>
      r.error == ParsePeriodValue(Field(args, "period2"), now).error
  {
    var p1 :- ParsePeriodValue(Arg(args, "period1", Str(start)), now);
    var p2 :- ParsePeriodValue(Arg(args, "period2", Str("now")), now);
    Success((p1, p2))
  }

  // ------------------------------------------------------------ operations

  function GetQuote(args: Object, lib: Library): Result<Value, Thrown> {
    lib(QuoteCall(Field(args, "symbol")))
  }

  /** The library call `getHistoricalData` makes. */
  function HistoricalRequest(args: Object, now: Instant): (r: Result<Call, Thrown>)
    ensures r.Success? <==> ResolveBounds(args, "1y", now).Success?
    ensures r.Success? ==> r.value.HistoricalCall? && r.value.symbol == Field(args, "symbol")
    ensures r.Success? ==> (r.value.period1, r.value.period2) == ResolveBounds(args, "1y", now).value
    ensures r.Success? && Field(args, "interval").Undefined? ==> r.value.interval == Str("1d")
    ensures r.Success? && !Field(args, "interval").Undefined? ==> r.value.interval == Field(args, "interval")
  {
    var bounds :- ResolveBounds(args, "1y", now);
    Success(HistoricalCall(Field(args, "symbol"), bounds.0, bounds.1, Arg(args, "interval", Str("1d"))))
  }

  function GetHistoricalData(args: Object, lib: Library, now: Instant): Result<Value, Thrown> {
    var call :- HistoricalRequest(args, now);
    lib(call)
  }

  function SearchForSymbols(args: Object, lib: Library): Result<Value, Thrown> {
    lib(SearchCall(Field(args, "query"), None))
  }

  const CompanyStatsOptions: Object :=
    [Member("modules", Arr([Str("summaryDetail"), Str("financialData"), Str("defaultKeyStatistics")]))]

  const CompanyProfileOptions: Object := [Member("modules", Arr([Str("assetProfile")]))]

  /** `Promise.all([primary, profile.catch(() => null)])` turned into
      `{ quote, profile }`: the primary call's failure fails the whole join,
      the profile call's failure becomes null. */
  function JoinCompanyInfo(primary: Result<Value, Thrown>, profile: Result<Value, Thrown>): (r: Result<Value, Thrown>)
    ensures r.Failure? <==> primary.Failure?
    ensures r.Failure? ==> r.error == primary.error
    ensures r.Success? ==> r.value.Obj? && Keys(r.value.members) == ["quote", "profile"]
    ensures r.Success? ==> Field(r.value.members, "quote") == primary.value
    ensures r.Success? && profile.Failure? ==> Field(r.value.members, "profile") == Null
    ensures r.Success? && profile.Success? ==> Field(r.value.members, "profile") == profile.value
  {
    match primary
    case Failure(e) => Failure(e)
    case Success(q) =>
      var p := match profile case Success(v) => v case Failure(_) => Null;
      Success(Obj([Member("quote", q), Member("profile", p)]))
  }

  /** Two quote-summary calls for the symbol, statistics and profile,
      joined: the statistics decide success, a failed profile is null. */
  function GetCompanyInfo(args: Object, lib: Library): (r: Result<Value, Thrown>)
    ensures var stats := lib(QuoteSummaryCall(Field(args, "symbol"), CompanyStatsOptions));
      && (r.Failure? <==> stats.Failure?)
      && (stats.Failure? ==> r == Failure(stats.error))
      && (stats.Success? ==> r.value.Obj? && Keys(r.value.members) == ["quote", "profile"])
      && (stats.Success? ==> Field(r.value.members, "quote") == stats.value)
    ensures var profile := lib(QuoteSummaryCall(Field(args, "symbol"), CompanyProfileOptions));
      r.Success? ==> Field(r.value.members, "profile") == (if profile.Success? then profile.value else Null)
  {
    var symbol := Field(args, "symbol");
    JoinCompanyInfo(lib(QuoteSummaryCall(symbol, CompanyStatsOptions)),
                    lib(QuoteSummaryCall(symbol, CompanyProfileOptions)))
  }

  function GetRecommendations(args: Object, lib: Library): Result<Value, Thrown> {
    lib(RecommendationsCall(Field(args, "symbol")))
  }

  /** Ignores its parameters: the region is always "US". */
  function GetTrendingSymbols(args: Object, lib: Library): Result<Value, Thrown> {
    lib(TrendingCall(Str("US")))
  }

  // -------------------------------------------------------- market summary

  const IndexSymbols: seq<string> := ["^GSPC", "^DJI", "^IXIC", "^RUT", "^VIX"]

  const SummaryFields: seq<string> :=
    ["symbol", "shortName", "regularMarketPrice", "regularMarketChange",
     "regularMarketChangePercent", "regularMarketTime"]

  /** `Promise.all` over already settled calls: every value in input order,
      or a rejection carried by one of the inputs.  (Of several rejections
      the real one is whichever settles first; the model takes the first by
      position.) */
  function AwaitAll(rs: seq<Result<Value, Thrown>>): (r: Result<seq<Value>, Thrown>)
    ensures r.Success? <==> forall i :: 0 <= i < |rs| ==> rs[i].Success?
    ensures r.Success? ==> |r.value| == |rs| && forall i :: 0 <= i < |rs| ==> r.value[i] == rs[i].value
    ensures r.Failure? ==> exists i :: 0 <= i < |rs| && rs[i] == Failure(r.error)
  {
    if rs == [] then Success([])
    else
      match rs[0]
      case Failure(e) => Failure(e)
      case Success(v) =>
        match AwaitAll(rs[1..])
        case Failure(e) => Failure(e)
        case Success(vs) => Success([v] + vs)
  }

  /** The six-field entry built from one index quote. */
  function ProjectQuote(quote: Value): (r: Result<Value, Thrown>)
    ensures r.Failure? <==> quote.Undefined? || quote.Null?
    ensures r.Success? ==> r.value.Obj? && Keys(r.value.members) == SummaryFields
    ensures r.Success? && quote.Obj? ==> forall i :: 0 <= i < |SummaryFields| ==>
      Field(r.value.members, SummaryFields[i]) == Field(quote.members, SummaryFields[i])
  {
    if quote.Undefined? || quote.Null? then Failure(Prop(quote, "symbol").error)
    else
      var ms := seq(|SummaryFields|, i requires 0 <= i < |SummaryFields| =>
        Member(SummaryFields[i], Prop(quote, SummaryFields[i]).value));
      assert Keys(ms) == SummaryFields;
      forall i | 0 <= i < |SummaryFields| ensures Field(ms, SummaryFields[i]) == ms[i].value {
        FieldAt(ms, i);
      }
      Success(Obj(ms))
  }

  /** `quotes.map(project)`: stops at the first quote it cannot read. */
  function ProjectAll(quotes: seq<Value>): (r: Result<seq<Value>, Thrown>)
    ensures r.Success? <==> forall i :: 0 <= i < |quotes| ==> ProjectQuote(quotes[i]).Success?
    ensures r.Success? ==> |r.value| == |quotes|
    ensures r.Success? ==> forall i :: 0 <= i < |quotes| ==> r.value[i] == ProjectQuote(quotes[i]).value
    ensures r.Failure? ==> exists i :: 0 <= i < |quotes| && ProjectQuote(quotes[i]) == Failure(r.error)
  {
    if quotes == [] then Success([])
    else
      match ProjectQuote(quotes[0])
      case Failure(e) => Failure(e)
      case Success(entry) =>
        match ProjectAll(quotes[1..])
        case Failure(e) => Failure(e)
        case Success(entries) => Success([entry] + entries)
  }

  /** `{ indices, timestamp }` from the settled index quotes, in the order of
      the index list whatever order they completed in. */
  function SummarizeIndices(quotes: seq<Result<Value, Thrown>>, now: Instant): (r: Result<Value, Thrown>)
    ensures r.Success? <==> forall i :: 0 <= i < |quotes| ==>
      quotes[i].Success? && !quotes[i].value.Undefined? && !quotes[i].value.Null?
    ensures r.Success? ==> r.value.Obj? && Keys(r.value.members) == ["indices", "timestamp"]
    ensures r.Success? ==> Field(r.value.members, "timestamp") == Str(now.iso)
    ensures r.Success? ==>
      var indices := Field(r.value.members, "indices");
      && indices.Arr? && |indices.items| == |quotes|
      && forall i :: 0 <= i < |quotes| ==>
           quotes[i].Success? && ProjectQuote(quotes[i].value).Success? &&
           indices.items[i] == ProjectQuote(quotes[i].value).value
  {
    var settled :- AwaitAll(quotes);
    var entries :- ProjectAll(settled);
    Success(Obj([Member("indices", Arr(entries)), Member("timestamp", Str(now.iso))]))
  }

  function GetMarketSummary(args: Object, lib: Library, now: Instant): (r: Result<Value, Thrown>)
    ensures r.Success? <==> forall i :: 0 <= i < 5 ==>
      var q := lib(QuoteCall(Str(IndexSymbols[i]))); q.Success? && !q.value.Undefined? && !q.value.Null?
    ensures r.Success? ==> r.value.Obj? && Keys(r.value.members) == ["indices", "timestamp"]
    ensures r.Success? ==>
      var indices := Field(r.value.members, "indices");
      && indices.Arr? && |indices.items| == 5
      && forall i :: 0 <= i < 5 ==>
           var q := lib(QuoteCall(Str(IndexSymbols[i])));
           q.Success? && ProjectQuote(q.value).Success? && indices.items[i] == ProjectQuote(q.value).value
  {
    var quotes := seq(|IndexSymbols|, i requires 0 <= i < |IndexSymbols| => lib(QuoteCall(Str(IndexSymbols[i]))));
    assert |quotes| == 5;
    assert forall i :: 0 <= i < 5 ==> quotes[i] == lib(QuoteCall(Str(IndexSymbols[i])));
    SummarizeIndices(quotes, now)
  }

  // ----------------------------------------------------- news and options

  /** The library call `getNews` makes: `search(query, { newsCount })`. */
  function NewsRequest(args: Object): (c: Call)
    ensures c.SearchCall? && c.query == Field(args, "query")
    ensures c.searchOptions.Some? && Keys(c.searchOptions.value) == ["newsCount"]
    ensures Field(args, "newsCount").Undefined? ==> Field(c.searchOptions.value, "newsCount") == Int(10)
    ensures !Field(args, "newsCount").Undefined? ==> Field(c.searchOptions.value, "newsCount") == Field(args, "newsCount")
  {
    SearchCall(Field(args, "query"), Some([Member("newsCount", Arg(args, "newsCount", Int(10)))]))
  }

  /** The `news` member of the search result. */
  function GetNews(args: Object, lib: Library): (r: Result<Value, Thrown>)
    ensures var up := lib(NewsRequest(args));
      r.Success? <==> up.Success? && !up.value.Undefined? && !up.value.Null?
    ensures var up := lib(NewsRequest(args));
      up.Failure? ==> r == up
    ensures var up := lib(NewsRequest(args));
      up.Success? && (up.value.Undefined? || up.value.Null?) ==> r.error.Error?
    ensures var up := lib(NewsRequest(args));
      up.Success? && up.value.Obj? ==> r == Success(Field(up.value.members, "news"))
  {
    var results :- lib(NewsRequest(args));
    Prop(results, "news")
  }

  /** The library call `getOptions` makes: `date` is set only when the
      argument is truthy (for a string: non-empty). */
  function OptionsRequest(args: Object): (c: Call)
    ensures c.OptionsCall? && c.symbol == Field(args, "symbol")
    ensures Field(args, "formatted").Undefined? ==> c.formatted == Bool(false)
    ensures !Field(args, "formatted").Undefined? ==> c.formatted == Field(args, "formatted")
    ensures c.date.Some? <==> !Falsy(Field(args, "date"))
    ensures c.date.Some? ==> c.date.value == Field(args, "date")
  {
    var date := Field(args, "date");
    OptionsCall(Field(args, "symbol"), Arg(args, "formatted", Bool(false)),
                if Falsy(date) then None else Some(date))
  }

  function GetOptions(args: Object, lib: Library): Result<Value, Thrown> {
    lib(OptionsRequest(args))
  }

  /** The library call `getInsights` makes: `insights(symbol, { reportsCount })`. */
  function InsightsRequest(args: Object): (c: Call)
    ensures c.InsightsCall? && c.symbol == Field(args, "symbol") && Keys(c.options) == ["reportsCount"]
    ensures Field(args, "reportsCount").Undefined? ==> Field(c.options, "reportsCount") == Int(5)
    ensures !Field(args, "reportsCount").Undefined? ==> Field(c.options, "reportsCount") == Field(args, "reportsCount")
  {
    InsightsCall(Field(args, "symbol"), [Member("reportsCount", Arg(args, "reportsCount", Int(5)))])
  }

  function GetInsights(args: Object, lib: Library): Result<Value, Thrown> {
    lib(InsightsRequest(args))
  }

  // ------------------------------------------------------------- screeners

  function ScrId(screen: Screen): string {
    match screen
    case DayGainers => "day_gainers"
    case DayLosers => "day_losers"
  }

  /** "An error occurred while fetching the daily gainers/losers: " */
  function ScreenerErrorPrefix(screen: Screen): string {
    match screen
    case DayGainers => "获取每日涨幅股票数据时发生错误: "
    case DayLosers => "获取每日跌幅股票数据时发生错误: "
  }

  /** The `||` defaults of the screener result, field by field. */
  function ScreenerDefaults(screen: Screen): seq<Member> {
    [Member("title", Str(ScreenerTitle(screen))), Member("description", Str(ScreenerDescription(screen))),
     Member("count", Int(0)), Member("total", Int(0)), Member("start", Int(0)), Member("quotes", Arr([]))]
  }

  function ScreenerTitle(screen: Screen): string {
    match screen
    case DayGainers => "Day Gainers"
    case DayLosers => "Day Losers"
  }

  function ScreenerDescription(screen: Screen): string {
    match screen
    case DayGainers => "Discover the equities with the greatest gains in the trading day."
    case DayLosers => "Discover the equities with the greatest losses in the trading day."
  }

  const ScreenerResultKeys: seq<string> :=
    ["id", "title", "description", "count", "total", "start", "quotes", "timestamp"]

  /** The screener query: fixed screen id, language and region; only the
      count comes from the parameters. */
  function ScreenerRequest(screen: Screen, args: Object): (c: Call)
    ensures c.ScreenerCall?
    ensures Keys(c.options) == ["scrIds", "count", "lang", "region"]
    ensures Field(c.options, "scrIds") == Str(ScrId(screen))
    ensures Field(c.options, "lang") == Str("en-US") && Field(c.options, "region") == Str("US")
    ensures Field(args, "count").Undefined? ==> Field(c.options, "count") == Int(10)
    ensures !Field(args, "count").Undefined? ==> Field(c.options, "count") == Field(args, "count")
  {
    ScreenerOptionsKeys(screen, Arg(args, "count", Int(10)));
    ScreenerOptionsFields(screen, Arg(args, "count", Int(10)));
    ScreenerCall(ScreenerOptions(screen, Arg(args, "count", Int(10))))
  }

  function ScreenerOptions(screen: Screen, count: Value): Object {
    [Member("scrIds", Str(ScrId(screen))), Member("count", count),
     Member("lang", Str("en-US")), Member("region", Str("US"))]
  }

  lemma ScreenerOptionsKeys(screen: Screen, count: Value)
    ensures Keys(ScreenerOptions(screen, count)) == ["scrIds", "count", "lang", "region"]
  {
    var ks := Keys(ScreenerOptions(screen, count));
    assert ks[0] == "scrIds" && ks[1] == "count" && ks[2] == "lang" && ks[3] == "region";
  }

  lemma ScreenerOptionsFields(screen: Screen, count: Value)
    ensures Field(ScreenerOptions(screen, count), "scrIds") == Str(ScrId(screen))
    ensures Field(ScreenerOptions(screen, count), "count") == count
    ensures Field(ScreenerOptions(screen, count), "lang") == Str("en-US")
    ensures Field(ScreenerOptions(screen, count), "region") == Str("US")
  {
    var options := ScreenerOptions(screen, count);
    assert options[0].key == "scrIds" && options[1].key == "count";
    assert options[2].key == "lang" && options[3].key == "region";
    FieldAt(options, 2);
    FieldAt(options, 3);
  }

  /** The result object built from the screener's payload: `id` copied,
      every other field `payload.field || default`, and a timestamp. */
  function ShapeScreener(screen: Screen, payload: Value, now: Instant): (r: Result<Value, Thrown>)
    ensures r.Failure? <==> payload.Undefined? || payload.Null?
    ensures r.Failure? ==> r.error == Prop(payload, "id").error
    ensures r.Success? ==> r.value.Obj? && Keys(r.value.members) == ScreenerResultKeys
    ensures r.Success? ==> Field(r.value.members, "id") == Prop(payload, "id").value
    ensures r.Success? ==> forall i :: 0 <= i < |ScreenerDefaults(screen)| ==>
      var key := ScreenerDefaults(screen)[i].key;
      var upstream := Prop(payload, key).value;
      && (!Falsy(upstream) ==> Field(r.value.members, key) == upstream)
      && (Falsy(upstream) ==> Field(r.value.members, key) == ScreenerDefaults(screen)[i].value)
    ensures r.Success? ==> Field(r.value.members, "timestamp") == Str(now.iso)
  {
    if payload.Undefined? || payload.Null? then Failure(Prop(payload, "id").error)
    else
      var defaults := ScreenerDefaults(screen);
      ScreenerDefaultsKeys(screen);
      DefaultedObject(defaults, payload, Prop(payload, "id").value, Str(now.iso));
      Success(Obj(ScreenerObject(Prop(payload, "id").value, DefaultedFields(defaults, payload), Str(now.iso))))
  }

  /** The result object built from a defaults table with the result's keys. */
  lemma DefaultedObject(defaults: seq<Member>, payload: Value, id: Value, timestamp: Value)
    requires !payload.Undefined? && !payload.Null?
    requires Keys(defaults) == ScreenerResultKeys[1..7]
    ensures var ms := ScreenerObject(id, DefaultedFields(defaults, payload), timestamp);
      && Keys(ms) == ScreenerResultKeys
      && Field(ms, "id") == id
      && Field(ms, "timestamp") == timestamp
      && forall i :: 0 <= i < |defaults| ==>
        var key := defaults[i].key;
        var upstream := Prop(payload, key).value;
        && (!Falsy(upstream) ==> Field(ms, key) == upstream)
        && (Falsy(upstream) ==> Field(ms, key) == defaults[i].value)
  {
    var fields := DefaultedFields(defaults, payload);
    assert Keys(fields) == Keys(defaults);
    ScreenerObjectFields(id, fields, timestamp);
  }

  function ScreenerObject(id: Value, fields: seq<Member>, timestamp: Value): Object {
    [Member("id", id)] + fields + [Member("timestamp", timestamp)]
  }

  lemma ScreenerDefaultsKeys(screen: Screen)
    ensures Keys(ScreenerDefaults(screen)) == ScreenerResultKeys[1..7]
  {
  }

  /** Every member of the result object is found by its key. */
  lemma ScreenerObjectFields(id: Value, fields: seq<Member>, timestamp: Value)
    requires Keys(fields) == ScreenerResultKeys[1..7]
    ensures Keys(ScreenerObject(id, fields, timestamp)) == ScreenerResultKeys
    ensures Field(ScreenerObject(id, fields, timestamp), "id") == id
    ensures forall i :: 0 <= i < |fields| ==> Field(ScreenerObject(id, fields, timestamp), fields[i].key) == fields[i].value
    ensures Field(ScreenerObject(id, fields, timestamp), "timestamp") == timestamp
  {
    var ms := ScreenerObject(id, fields, timestamp);
    ScreenerObjectKeys(id, fields, timestamp);
    ScreenerResultKeysDistinct();
    assert UniqueKeys(ms) by {
      forall i, j | 0 <= i < j < |ms| ensures ms[i].key != ms[j].key {
        assert ms[i].key == ScreenerResultKeys[i] && ms[j].key == ScreenerResultKeys[j];
      }
    }
    FieldOfDistinct(ms);
    forall i | 0 <= i < |fields|
      ensures Field(ms, fields[i].key) == fields[i].value
    {
      assert ms[i + 1] == fields[i];
    }
    assert ms[0] == Member("id", id);
    assert ms[7] == Member("timestamp", timestamp);
  }

  lemma ScreenerObjectKeys(id: Value, fields: seq<Member>, timestamp: Value)
    requires Keys(fields) == ScreenerResultKeys[1..7]
    ensures Keys(ScreenerObject(id, fields, timestamp)) == ScreenerResultKeys
  {
    var ms := ScreenerObject(id, fields, timestamp);
    assert |ms| == 8;
    forall i | 0 <= i < 8 ensures Keys(ms)[i] == ScreenerResultKeys[i] {
      if 1 <= i < 7 {
        assert ms[i] == fields[i - 1];
        assert Keys(fields)[i - 1] == ScreenerResultKeys[i];
      }
    }
  }

  /** `payload.key || default` for each row of a defaults table. */
  function DefaultedFields(defaults: seq<Member>, payload: Value): (fields: seq<Member>)
    requires !payload.Undefined? && !payload.Null?
    ensures |fields| == |defaults|
    ensures forall i :: 0 <= i < |defaults| ==> fields[i].key == defaults[i].key
    ensures forall i :: 0 <= i < |defaults| ==> var upstream := Prop(payload, defaults[i].key).value;
      && (!Falsy(upstream) ==> fields[i].value == upstream)
      && (Falsy(upstream) ==> fields[i].value == defaults[i].value)
  {
    seq(|defaults|, i requires 0 <= i < |defaults| =>
      Member(defaults[i].key, OrElse(Prop(payload, defaults[i].key).value, defaults[i].value)))
  }

  lemma ScreenerResultKeysDistinct()
    ensures forall i, j :: 0 <= i < j < |ScreenerResultKeys| ==> ScreenerResultKeys[i] != ScreenerResultKeys[j]
  {
  }

  /** The body of the `try` block: the screener call, then the result object. */
  function FetchScreener(screen: Screen, args: Object, lib: Library, now: Instant): (r: Result<Value, Thrown>)
    ensures var up := lib(ScreenerRequest(screen, args));
      r.Failure? <==> up.Failure? || up.value.Undefined? || up.value.Null?
    ensures var up := lib(ScreenerRequest(screen, args));
      up.Failure? ==> r.error == up.error
  {
    var payload :- lib(ScreenerRequest(screen, args));
    ShapeScreener(screen, payload, now)
  }

  /** Once the screener delivers a payload, the result is that payload
      shaped. */
  lemma FetchScreenerShapes(screen: Screen, args: Object, lib: Library, now: Instant)
    ensures var up := lib(ScreenerRequest(screen, args));
      up.Success? ==> FetchScreener(screen, args, lib, now) == ShapeScreener(screen, up.value, now)
  {
  }

  /** `getDailyGainers` / `getDailyLosers`. */
  function GetDailyMovers(screen: Screen, args: Object, lib: Library, now: Instant): (r: Result<Value, Thrown>)
    ensures var up := lib(ScreenerRequest(screen, args));
      r.Failure? <==> up.Failure? || up.value.Undefined? || up.value.Null?
    ensures var up := lib(ScreenerRequest(screen, args));
      up.Failure? ==> r.error == Error(ScreenerErrorPrefix(screen) + MessageOr(up.error, "未知错误"))
    ensures var up := lib(ScreenerRequest(screen, args));
      up.Success? && (up.value.Undefined? || up.value.Null?) ==>
        r.error == Error(ScreenerErrorPrefix(screen) + Prop(up.value, "id").error.message)
    ensures var up := lib(ScreenerRequest(screen, args));
      up.Success? && !up.value.Undefined? && !up.value.Null? ==> r == ShapeScreener(screen, up.value, now)
    ensures r.Failure? ==> r.error.Error? && ScreenerErrorPrefix(screen) <= r.error.message
  {
    FetchScreenerShapes(screen, args, lib, now);
    Rethrow(ScreenerErrorPrefix(screen), FetchScreener(screen, args, lib, now))
  }

  function GetDailyGainers(args: Object, lib: Library, now: Instant): Result<Value, Thrown> {
    GetDailyMovers(DayGainers, args, lib, now)
  }

  function GetDailyLosers(args: Object, lib: Library, now: Instant): Result<Value, Thrown> {
    GetDailyMovers(DayLosers, args, lib, now)
  }

  // ------------------------------------------------- chart, quote summary

  /** The library call `getChart` makes. */
  function ChartRequest(args: Object, now: Instant): (r: Result<Call, Thrown>)
    ensures r.Success? <==> ResolveBounds(args, "1mo", now).Success?
    ensures r.Success? ==> r.value.ChartCall? && r.value.symbol == Field(args, "symbol")
    ensures r.Success? ==> (r.value.period1, r.value.period2) == ResolveBounds(args, "1mo", now).value
    ensures r.Success? && Field(args, "interval").Undefined? ==> r.value.interval == Str("1d")
    ensures r.Success? && !Field(args, "interval").Undefined? ==> r.value.interval == Field(args, "interval")
    ensures r.Success? && Field(args, "events").Undefined? ==> r.value.events == Str("div|split|earn")
    ensures r.Success? && !Field(args, "events").Undefined? ==> r.value.events == Field(args, "events")
  {
    var bounds :- ResolveBounds(args, "1mo", now);
    Success(ChartCall(Field(args, "symbol"), bounds.0, bounds.1,
                      Arg(args, "interval", Str("1d")), Arg(args, "events", Str("div|split|earn"))))
  }

  /** "An error occurred while fetching the chart data: " */
  const ChartErrorPrefix: string := "获取图表数据时发生错误: "

  /** "An error occurred while fetching the quote summary: " */
  const QuoteSummaryErrorPrefix: string := "获取股票摘要数据时发生错误: "

  /** `toJSON(result)` inside a `try` that rethrows with a prefix: the value
      as plain JSON, or an Error whose message starts with the prefix. */
  function Sanitize(prefix: string, up: Result<Value, Thrown>): (r: Result<Value, Thrown>)
    ensures r.Success? <==> up.Success? && !up.value.Undefined?
    ensures r.Success? ==> r == ToJson(up.value) && IsJson(r.value) && NoDates(r.value)
    ensures up.Failure? ==> r.error == Error(prefix + MessageOr(up.error, "未知错误"))
    ensures r.Failure? ==> r.error.Error? && prefix <= r.error.message
  {
    Rethrow(prefix, var v :- up; ToJson(v))
  }

  /** `parsePeriod` runs inside the `try`, so a bound it cannot read is
      rethrown under the chart prefix too. */
  function GetChart(args: Object, lib: Library, now: Instant): (r: Result<Value, Thrown>)
    ensures ChartRequest(args, now).Failure? ==>
      r == Failure(Error(ChartErrorPrefix + MessageOr(ChartRequest(args, now).error, "未知错误")))
    ensures ChartRequest(args, now).Success? ==>
      r == Sanitize(ChartErrorPrefix, lib(ChartRequest(args, now).value))
    ensures r.Success? ==> IsJson(r.value) && NoDates(r.value)
    ensures r.Failure? ==> r.error.Error? && ChartErrorPrefix <= r.error.message
  {
    Rethrow(ChartErrorPrefix,
      var call :- ChartRequest(args, now);
      var chart :- lib(call);
      ToJson(chart))
  }

  /** `{ modules }`, the four default modules unless given. */
  function QuoteSummaryOptions(args: Object): (o: Object)
    ensures Keys(o) == ["modules"]
    ensures Field(args, "modules").Undefined? ==> Field(o, "modules") == DefaultQuoteSummaryModules
    ensures !Field(args, "modules").Undefined? ==> Field(o, "modules") == Field(args, "modules")
  {
    [Member("modules", Arg(args, "modules", DefaultQuoteSummaryModules))]
  }

  /** The quote summary, sanitized, under its own error prefix. */
  function GetQuoteSummary(args: Object, lib: Library): (r: Result<Value, Thrown>)
    ensures var up := lib(QuoteSummaryCall(Field(args, "symbol"), QuoteSummaryOptions(args)));
      r.Success? <==> up.Success? && !up.value.Undefined?
    ensures var up := lib(QuoteSummaryCall(Field(args, "symbol"), QuoteSummaryOptions(args)));
      up.Success? && !up.value.Undefined? ==> r == ToJson(up.value)
    ensures var up := lib(QuoteSummaryCall(Field(args, "symbol"), QuoteSummaryOptions(args)));
      up.Failure? ==> r == Failure(Error(QuoteSummaryErrorPrefix + MessageOr(up.error, "未知错误")))
    ensures var up := lib(QuoteSummaryCall(Field(args, "symbol"), QuoteSummaryOptions(args)));
      up.Success? && up.value.Undefined? ==>
        r == Failure(Error(QuoteSummaryErrorPrefix + "\"undefined\" is not valid JSON"))
    ensures r.Success? ==> IsJson(r.value) && NoDates(r.value)
    ensures r.Failure? ==> r.error.Error? && QuoteSummaryErrorPrefix <= r.error.message
  {
    Sanitize(QuoteSummaryErrorPrefix, lib(QuoteSummaryCall(Field(args, "symbol"), QuoteSummaryOptions(args))))
  }

  /** A numeric bound: the chart rethrows `parsePeriod`'s TypeError under its
      prefix, while historical data, which has no `try`, rejects with it
      as it is. */
  lemma BadBoundRethrown(symbol: Value, n: Number, lib: Library, now: Instant)
    ensures GetChart([Member("symbol", symbol), Member("period1", Num(n))], lib, now) ==
      Failure(Error(ChartErrorPrefix + "period.match is not a function"))
    ensures GetHistoricalData([Member("symbol", symbol), Member("period1", Num(n))], lib, now) ==
      Failure(Error("period.match is not a function"))
  {
    var args: Object := [Member("symbol", symbol), Member("period1", Num(n))];
    assert Field(args, "period1") == Num(n);
  }

  /** Once its request is built, the chart is the sanitized library answer. */
  lemma ChartIsSanitized(args: Object, lib: Library, now: Instant)
    requires ChartRequest(args, now).Success?
    ensures GetChart(args, lib, now) == Sanitize(ChartErrorPrefix, lib(ChartRequest(args, now).value))
  {
  }

  /** Run an operation on its parameters.  The postconditions name each
      case so that callers need not unfold the whole table. */
  function Invoke(op: Operation, args: Object, lib: Library, now: Instant): (r: Result<Value, Thrown>)
    ensures op.Quote? ==> r == GetQuote(args, lib)
    ensures op.HistoricalData? ==> r == GetHistoricalData(args, lib, now)
    ensures op.SearchSymbols? ==> r == SearchForSymbols(args, lib)
    ensures op.CompanyInfo? ==> r == GetCompanyInfo(args, lib)
    ensures op.Recommendations? ==> r == GetRecommendations(args, lib)
    ensures op.TrendingSymbols? ==> r == GetTrendingSymbols(args, lib)
    ensures op.MarketSummary? ==> r == GetMarketSummary(args, lib, now)
    ensures op.News? ==> r == GetNews(args, lib)
    ensures op.Options? ==> r == GetOptions(args, lib)
    ensures op.Insights? ==> r == GetInsights(args, lib)
    ensures op.DailyGainers? ==> r == GetDailyGainers(args, lib, now)
    ensures op.DailyLosers? ==> r == GetDailyLosers(args, lib, now)
    ensures op.Chart? ==> r == GetChart(args, lib, now)
    ensures op.QuoteSummary? ==> r == GetQuoteSummary(args, lib)
  {
    match op
    case Quote => GetQuote(args, lib)
    case HistoricalData => GetHistoricalData(args, lib, now)
    case SearchSymbols => SearchForSymbols(args, lib)
    case CompanyInfo => GetCompanyInfo(args, lib)
    case Recommendations => GetRecommendations(args, lib)
    case TrendingSymbols => GetTrendingSymbols(args, lib)
    case MarketSummary => GetMarketSummary(args, lib, now)
    case News => GetNews(args, lib)
    case Options => GetOptions(args, lib)
    case Insights => GetInsights(args, lib)
    case DailyGainers => GetDailyGainers(args, lib, now)
    case DailyLosers => GetDailyLosers(args, lib, now)
    case Chart => GetChart(args, lib, now)
    case QuoteSummary => GetQuoteSummary(args, lib)
  }

  // -------------------------------------------------------------- lemmas

  /** `count` is the upstream count (or 0 when that is falsy), whatever the
      quotes are: it is never recomputed from them. */
  lemma ScreenerCountNotRecomputed(screen: Screen, payload: Value, now: Instant)
    requires payload.Obj?
    ensures var r := ShapeScreener(screen, payload, now);
      var count := Prop(payload, "count").value;
      && r.Success?
      && Field(r.value.members, "count") == (if Falsy(count) then Int(0) else count)
      && Field(r.value.members, "quotes") == OrElse(Prop(payload, "quotes").value, Arr([]))
  {
    ShapedMember(screen, payload, now, 2);
    ShapedMember(screen, payload, now, 5);
    assert ScreenerDefaults(screen)[2] == Member("count", Int(0));
    assert ScreenerDefaults(screen)[5] == Member("quotes", Arr([]));
  }

  /** With only the required key given, each operation asks the library
      with its declared defaults: the historical range is "1y" until now,
      the chart range "1mo" until now, options are unformatted and undated,
      five insight reports, ten news items, ten screener quotes, and the
      four default quote-summary modules. */
  lemma AbsentArgumentsTakeDefaults(symbol: Value, query: Value, screen: Screen, lib: Library, now: Instant)
    ensures HistoricalRequest([Member("symbol", symbol)], now) ==
      Success(HistoricalCall(symbol, Passthrough("1y"), Now(now), Str("1d")))
    ensures ChartRequest([Member("symbol", symbol)], now) ==
      Success(ChartCall(symbol, Passthrough("1mo"), Now(now), Str("1d"), Str("div|split|earn")))
    ensures OptionsRequest([Member("symbol", symbol)]) == OptionsCall(symbol, Bool(false), None)
    ensures GetInsights([Member("symbol", symbol)], lib) ==
      lib(InsightsCall(symbol, [Member("reportsCount", Int(5))]))
    ensures GetNews([Member("query", query)], lib) ==
      GetNews([Member("query", query), Member("newsCount", Int(10))], lib)
    ensures ScreenerRequest(screen, []) == ScreenerCall(ScreenerOptions(screen, Int(10)))
    ensures QuoteSummaryOptions([Member("symbol", symbol)]) == [Member("modules", DefaultQuoteSummaryModules)]
  {
    RangeDefaults(symbol, now);
    SymbolDefaults(symbol, lib);
    NewsDefault(query, lib);
    ScreenerCountDefault(screen);
  }

  lemma SymbolDefaults(symbol: Value, lib: Library)
    ensures OptionsRequest([Member("symbol", symbol)]) == OptionsCall(symbol, Bool(false), None)
    ensures GetInsights([Member("symbol", symbol)], lib) ==
      lib(InsightsCall(symbol, [Member("reportsCount", Int(5))]))
    ensures QuoteSummaryOptions([Member("symbol", symbol)]) == [Member("modules", DefaultQuoteSummaryModules)]
  {
  }

  lemma NewsDefault(query: Value, lib: Library)
    ensures GetNews([Member("query", query)], lib) ==
      GetNews([Member("query", query), Member("newsCount", Int(10))], lib)
  {
  }

  lemma ScreenerCountDefault(screen: Screen)
    ensures ScreenerRequest(screen, []) == ScreenerCall(ScreenerOptions(screen, Int(10)))
  {
  }

  /** Both ranges with no bound given. */
  lemma RangeDefaults(symbol: Value, now: Instant)
    ensures HistoricalRequest([Member("symbol", symbol)], now) ==
      Success(HistoricalCall(symbol, Passthrough("1y"), Now(now), Str("1d")))
    ensures ChartRequest([Member("symbol", symbol)], now) ==
      Success(ChartCall(symbol, Passthrough("1mo"), Now(now), Str("1d"), Str("div|split|earn")))
  {
    var args: Object := [Member("symbol", symbol)];
    assert Field(args, "period1") == Undefined && Field(args, "period2") == Undefined;
    assert ResolveBounds(args, "1y", now) == Success((Passthrough("1y"), Now(now)));
    assert ResolveBounds(args, "1mo", now) == Success((Passthrough("1mo"), Now(now)));
  }

  /** One row of the defaults table, read back from the shaped result. */
  lemma ShapedMember(screen: Screen, payload: Value, now: Instant, i: nat)
    requires payload.Obj? && i < 6
    ensures var key := ScreenerDefaults(screen)[i].key;
      var upstream := Prop(payload, key).value;
      var r := ShapeScreener(screen, payload, now);
      && key == ScreenerResultKeys[i + 1]
      && r.Success?
      && (!Falsy(upstream) ==> Field(r.value.members, key) == upstream)
      && (Falsy(upstream) ==> Field(r.value.members, key) == ScreenerDefaults(screen)[i].value)
  {
    ScreenerDefaultsKeys(screen);
    assert Keys(ScreenerDefaults(screen))[i] == ScreenerDefaults(screen)[i].key;
  }

  /** After parsing, a declared key reads as before: a defaulted key once
      its default is applied again, any other key as it is. */
  lemma DeclaredArg(op: Operation, args: Object, i: nat)
    requires i < |ShapeOf(op)|
    ensures var spec := ShapeOf(op)[i];
      spec.kind.Default? ==>
        Arg(Parse(ShapeOf(op), args), spec.key, spec.kind.value) == Arg(args, spec.key, spec.kind.value)
    ensures var spec := ShapeOf(op)[i];
      !spec.kind.Default? ==> Field(Parse(ShapeOf(op), args), spec.key) == Field(args, spec.key)
  {
    assert Schema.DistinctKeys(ShapeOf(op));
    ParseFields(ShapeOf(op), args, ShapeOf(op)[i].key);
  }

  lemma HistoricalDataParsedAgrees(args: Object, lib: Library, now: Instant)
    ensures var p := Parse(ShapeOf(HistoricalData), args);
      GetHistoricalData(p, lib, now) == GetHistoricalData(args, lib, now)
  {
    var op := HistoricalData;
    DeclaredArg(op, args, 0); DeclaredArg(op, args, 1); DeclaredArg(op, args, 2); DeclaredArg(op, args, 3);
  }

  lemma ChartParsedAgrees(args: Object, lib: Library, now: Instant)
    ensures GetChart(Parse(ShapeOf(Chart), args), lib, now) == GetChart(args, lib, now)
  {
    ChartRequestParsedAgrees(args, now);
  }

  lemma ChartRequestParsedAgrees(args: Object, now: Instant)
    ensures ChartRequest(Parse(ShapeOf(Chart), args), now) == ChartRequest(args, now)
  {
    var op := Chart;
    DeclaredArg(op, args, 0); DeclaredArg(op, args, 1); DeclaredArg(op, args, 2);
    DeclaredArg(op, args, 3); DeclaredArg(op, args, 4);
  }

  lemma OptionsParsedAgrees(args: Object, lib: Library)
    ensures GetOptions(Parse(ShapeOf(Options), args), lib) == GetOptions(args, lib)
  {
    DeclaredArg(Options, args, 0); DeclaredArg(Options, args, 1); DeclaredArg(Options, args, 2);
  }

  lemma ScreenerParsedAgrees(screen: Screen, args: Object, lib: Library, now: Instant)
    ensures var op := if screen == DayGainers then DailyGainers else DailyLosers;
      GetDailyMovers(screen, Parse(ShapeOf(op), args), lib, now) == GetDailyMovers(screen, args, lib, now)
  {
    DeclaredArg(if screen == DayGainers then DailyGainers else DailyLosers, args, 0);
  }

  /** Running an operation on its schema-parsed parameters gives what it
      gives on the raw ones: every destructuring default repeats the schema
      default, and no operation reads an undeclared key.  So the agent
      front end (which passes arguments unparsed) and the tool-registry
      front end (which parses them) behave alike. */
  lemma {:induction false} ParsedArgumentsAgree(op: Operation, args: Object, lib: Library, now: Instant)
    ensures Invoke(op, Parse(ShapeOf(op), args), lib, now) == Invoke(op, args, lib, now)
  {
    match op
    case Quote => DeclaredArg(op, args, 0);
    case HistoricalData => HistoricalDataParsedAgrees(args, lib, now);
    case SearchSymbols => DeclaredArg(op, args, 0);
    case CompanyInfo => DeclaredArg(op, args, 0);
    case Recommendations => DeclaredArg(op, args, 0);
    case TrendingSymbols =>
    case MarketSummary =>
    case News => DeclaredArg(op, args, 0); DeclaredArg(op, args, 1);
    case Options => OptionsParsedAgrees(args, lib);
    case Insights => DeclaredArg(op, args, 0); DeclaredArg(op, args, 1);
    case DailyGainers => ScreenerParsedAgrees(DayGainers, args, lib, now);
    case DailyLosers => ScreenerParsedAgrees(DayLosers, args, lib, now);
    case Chart => ChartParsedAgrees(args, lib, now);
    case QuoteSummary => DeclaredArg(op, args, 0); DeclaredArg(op, args, 1);
  }
}

=== FILE: upstream.dfy ===
/** The calls the gateway makes into the market-data library.  The library
    itself is not modelled: it is a parameter of every operation, a function
    from the call (with its arguments) to what the awaited promise delivers
    or rejects with. */
module Upstream {
  import opened Wrappers
  import opened JsValue
  import opened Period

  /** The two predefined screens the gainers and losers operations use. */
  datatype Screen = DayGainers | DayLosers

  datatype Call =
    | QuoteCall(symbol: Value)
    | HistoricalCall(symbol: Value, period1: PeriodArg, period2: PeriodArg, interval: Value)
      /** `search(query)` when `searchOptions` is None, `search(query, searchOptions)` otherwise */
    | SearchCall(query: Value, searchOptions: Option<Object>)
    | QuoteSummaryCall(symbol: Value, options: Object)
    | RecommendationsCall(symbol: Value)
    | TrendingCall(region: Value)
      /** `options(symbol, { formatted, date: new Date(date) })`; `date` holds the
          argument given to `new Date`, None when the key is not set */
    | OptionsCall(symbol: Value, formatted: Value, date: Option<Value>)
    | InsightsCall(symbol: Value, options: Object)
    | ScreenerCall(options: Object)
    | DailyMoversCall(screen: Screen, options: Object)
    | ChartCall(symbol: Value, period1: PeriodArg, period2: PeriodArg, interval: Value, events: Value)

  /** The market-data library: each call resolves with a value or rejects. */
  type Library = Call -> Result<Value, Thrown>
}

=== FILE: wrappers.dfy ===
/** Option and Result, the failure-carrying datatypes the model uses for
    absent values and for operations that throw. */
module Wrappers {

  datatype Option<+T> = None | Some(value: T) {
    function GetOr(default: T): T {
      match this
      case Some(v) => v
      case None => default
    }
  }

  /** A computation that either returns a value or throws `error`. */
  datatype Result<+R, +E> = Success(value: R) | Failure(error: E) {
    predicate IsFailure() {
      Failure?
    }

    function PropagateFailure<U>(): Result<U, E>
      requires Failure?
    {
      Failure(error)
    }

    function Extract(): R
      requires Success?
    {
      value
    }
  }
}
